=== FILE: README.md ===
# CodeFuse page logic in Dafny

CodeFuse is a React front end for competitive programmers. It lists coding contests and
hackathons, keeps a personal task list, tracks friends' rankings on LeetCode, Codeforces and
CodeChef, stores the user's linked platform handles, and draws submission heatmaps. This
project models the decision logic of those pages as pure Dafny functions over immutable
datatypes, and proves what the pages promise about it.

The model covers:

- **Contests** (`contests.dfy`): the platform and status filters, the Ongoing / Upcoming / Past
  phases, the days / hours / minutes / seconds countdown, and the Load-More window of ten
  cards at a time.
- **Hackathons** (`hackathons.dfy`): the mode and minimum-prize filters, the newest-first
  sort, and the rule that turns a thumbnail reference into an image URL.
- **Tasks** (`tasks.dfy`): the search, status and sort chain; the In Progress and Completed
  sections; comma-separated tag parsing and its round trip through the edit form; the
  create, edit, complete and delete updates of the stored tasks; truncated card text.
- **Friends** (`friends.dfy`): duplicate-free adding, deleting by name, the score lookup with
  its default of 0, the user's own handle, and the leaderboard order (ascending global rank
  on LeetCode, descending rating elsewhere).
- **LinkedPlatforms** (`home.dfy`): the username drafts, merging one draft into the stored
  platform map, and the handle shown in the header.
- **Profile** (`profile.dfy`): the change-password handler as a transition of the form, and
  the icon chosen for a linked platform.
- **LeetCodeHeatmap**, **CodeforcesHeatmap** (`leetcode.dfy`, `codeforces.dfy`, with shared
  vocabulary in `heatmap.dfy`): the `classForValue` shading of a calendar cell.

Shared modules model the JavaScript built-ins the pages rely on:

- `Sequences`: `Array.prototype.filter`, and the stable `Array.prototype.sort` as a stable
  insertion sort.
- `Text`: `toLowerCase`, `includes`, `trim`, `split` and `join`.
- `Wrappers`: an `Option` type.

Everything outside the page logic becomes an input:

- The clock is a `now` parameter in milliseconds.
- Results from Firestore and Firebase Auth are outcome values. `Storage.StoreOutcome` says
  whether the awaited store call of a handler (a write, or a read then a write) went through
  or was rejected. `ProviderOutcome` is
  the password provider's answer, and the stored maps are parameters.
- `localeCompare`, Unicode `toLowerCase` and `new Date(text)` are fields of a `Host` value.
  The model assumes nothing about them beyond what each lemma states.

The sort comparators are modelled as `le(a, b) := cmp(a, b) <= 0` over a stable sort. This
matches the stable `Array.prototype.sort` that ECMAScript 2019 requires.

## Model

| member | source | states |
|---|---|---|
| Contests.ExactlyOnePhase | src/pages/ContestPage.jsx:93-95 | a contest that does not end before it starts is exactly one of ongoing, upcoming and past at any instant |
| Contests.FilteredContests | src/pages/ContestPage.jsx:88-102 | a contest is listed exactly when it is in the fetched list and matches both the platform button and the status button, and then as often as the backend sent it; a chosen platform lists only that platform; "Upcoming" lists only contests that start after now; an unknown status lists nothing |
| Contests.FilteredIsSubsequence | src/pages/ContestPage.jsx:88 | the listed contests keep the order the backend sent them in |
| Contests.FilterAllKeepsEverything | src/pages/ContestPage.jsx:89-97 | with both filters on "All", every contest is listed in its original order |
| Contests.CountdownParts | src/pages/ContestPage.jsx:104-114 | there is no countdown exactly when the start is not in the future |
| Contests.CountdownExact | src/pages/ContestPage.jsx:109-112 | hours are below 24, minutes and seconds below 60, days non-negative, and the parts add up to the time left rounded down to whole seconds |
| Contests.CountdownUnique | src/pages/ContestPage.jsx:109-112 | any normalised days/hours/minutes/seconds value that adds up to the time left is the one the page computes |
| Contests.OngoingHasNoCountdown | src/pages/ContestPage.jsx:220-229 | a contest that has started but not ended shows "Contest Ended" instead of a countdown |
| Contests.SelectPlatform | src/pages/ContestPage.jsx:145-148 | a platform button sets the platform, goes back to ten cards, and keeps the status |
| Contests.SelectStatus | src/pages/ContestPage.jsx:163-166 | a status button sets the status, goes back to ten cards, and keeps the platform |
| Contests.LoadMore | src/pages/ContestPage.jsx:258 | "Load More" widens the window by exactly ten and changes nothing else |
| Contests.Displayed | src/pages/ContestPage.jsx:184-186 | no cards while loading; otherwise a prefix of the filtered list of length min(filtered, window) |
| Contests.LoadMoreWhenHidden | src/pages/ContestPage.jsx:256-258 | once loaded, the button shows exactly when some filtered contest is hidden, and pressing it reveals between one and ten more |
| Contests.FilterChangeResetsWindow | src/pages/ContestPage.jsx:145-166 | after a filter change at most ten cards are on screen |
| Hackathons.FilteredHackathons | src/pages/Hackathon.jsx:58-61 | every listed hackathon is fetched, matches the mode, and has at least the tier's prize |
| Hackathons.FilteredIsPermutationOfMatches | src/pages/Hackathon.jsx:58-61 | the list holds exactly the hackathons matching both filters, each as often as in the input |
| Hackathons.NoFilterIsPermutation | src/pages/Hackathon.jsx:58-61 | with mode and prize on "All", every hackathon is listed, reordered only |
| Hackathons.FilteredNewestFirst | src/pages/Hackathon.jsx:61 | any two listed hackathons are in non-increasing order of posting date |
| Hackathons.HigherTierListsFewer | src/pages/Hackathon.jsx:60 | a higher minimum prize lists a sub-multiset of what a lower one lists |
| Hackathons.StricterTierListsFewer | src/pages/Hackathon.jsx:60 | a prize filter that every hackathon passing another one also passes lists a super-multiset of it |
| Hackathons.LaterTierListsFewer | src/pages/Hackathon.jsx:17 | a prize button further right ("All", 10000, 50000, 100000) never lists a hackathon more often than one to its left |
| Hackathons.ThumbnailSrc | src/pages/Hackathon.jsx:153 | a reference starting with "http" is used as is; any other gets "https:" in front; a missing one gives "https:undefined"; the result always starts with "http" |
| Hackathons.ThumbnailSrcIdempotent | src/pages/Hackathon.jsx:153 | applying the rule to its own output changes nothing |
| Tasks.FilteredTasks | src/pages/Tasks.jsx:139-150 | the shown tasks are a permutation of those passing the search and status steps; each one matches both; "completed" shows only completed tasks |
| Tasks.EmptySearchKeepsAll | src/pages/Tasks.jsx:140 | an empty search keeps every task, in order |
| Tasks.SearchIsSubstring | src/pages/Tasks.jsx:140 | a task survives the search exactly when the lower-cased search text occurs somewhere in its lower-cased title |
| Tasks.OrderingFiltersDropNothing | src/pages/Tasks.jsx:141-145 | "all", "a-z" and "due" drop nothing at the status step |
| Tasks.CompletedKeepsCompleted | src/pages/Tasks.jsx:142 | "completed" shows exactly the completed tasks that match the search |
| Tasks.AzSortsTitles | src/pages/Tasks.jsx:147 | for a total collation, "a-z" shows titles in collation order |
| Tasks.DueSortsDates | src/pages/Tasks.jsx:148 | "due" shows any two tasks in non-decreasing date order |
| Tasks.OtherFiltersKeepOrder | src/pages/Tasks.jsx:149 | every other filter keeps the filtered order unchanged |
| Tasks.SectionsPartition | src/pages/Tasks.jsx:215-219 | every shown task lands in exactly one of In Progress and Completed, so the counts add up |
| Tasks.ParseTags | src/pages/Tasks.jsx:91 | there is one tag more than there are commas, and no tag holds a comma or surrounding whitespace |
| Tasks.ParseTagsText | src/pages/Tasks.jsx:91 | parsing the ", "-joined text the edit form shows gives back well-formed stored tags |
| Tasks.NoTagsBecomeOneEmptyTag | src/pages/Tasks.jsx:127 | an empty tag list comes back from the form as one empty tag |
| Tasks.NewTask | src/pages/Tasks.jsx:99-103 | a new task carries the form fields, its tags are exactly the parsed tag text, and it is not completed |
| Tasks.EditTask | src/pages/Tasks.jsx:94-97 | an edit replaces the form fields, its tags are exactly the parsed tag text, and it keeps the id and the completed flag |
| Tasks.Submit | src/pages/Tasks.jsx:89-108 | signed out, a rejected write, or an edit of a task no longer stored changes nothing; a new task is stored under a fresh id and is not completed; an edit turns the edited task into the form's fields and parsed tags, keeps its completed flag and changes no other task; after every successful save the modal closes, the form resets and the edit id clears |
| Tasks.StartEdit | src/pages/Tasks.jsx:115-132 | signed out or a rejected read changes nothing; otherwise an existing task is loaded into the form field by field, the edit id is set and the modal opens; otherwise nothing changes |
| Tasks.CompleteTask | src/pages/Tasks.jsx:134-137 | signed out, a rejected write or an unknown id changes nothing; otherwise only the named task changes, and only its completed flag becomes true; the form is untouched |
| Tasks.CompleteTaskIdempotent | src/pages/Tasks.jsx:134-137 | completing a completed task again changes nothing, whatever the second write's outcome |
| Tasks.DeleteTask | src/pages/Tasks.jsx:110-113 | signed out or a rejected write changes nothing; otherwise exactly the named task is removed and the others are unchanged; the form is untouched |
| Tasks.EditRoundTrip | src/pages/Tasks.jsx:115-132 | opening a task with well-formed tags and saving without changes leaves the store unchanged, closes the modal and clears the edit id |
| Tasks.DisplayTitle | src/pages/Tasks.jsx:156 | the shown title has at most 30 characters and equals the title exactly when the title fits; otherwise it is the first 27 characters and "..." |
| Tasks.DisplayTitleIdempotent | src/pages/Tasks.jsx:156 | a shown title is shown unchanged |
| Tasks.DisplayUrl | src/pages/Tasks.jsx:162 | the shown URL has at most 38 characters; a URL of up to 35 characters is shown as is; a longer URL shows as its first 35 characters followed by "..." |
| Friends.FriendLists.With | src/pages/TrackFriends.jsx:109-112 | replacing one platform's list leaves the other platforms' lists unchanged |
| Friends.AddFriend | src/pages/TrackFriends.jsx:98-116 | empty input, no user, a rejected write or a name already stored changes nothing; otherwise the name is appended to the stored list, the page copy becomes that list, the input clears and the success alert names the platform key; other platforms are unchanged |
| Friends.AddFriendKeepsNoDuplicates | src/pages/TrackFriends.jsx:105-107 | adding keeps a duplicate-free stored list duplicate-free |
| Friends.DeleteFriend | src/pages/TrackFriends.jsx:202-209 | a rejected write changes nothing; otherwise the name is gone from the platform's list, every other name keeps its count, the store and the page get the same list, and other platforms are unchanged |
| Friends.DeleteKeepsOrder | src/pages/TrackFriends.jsx:204 | the remaining friends keep their order |
| Friends.DeleteRemovesRow | src/pages/TrackFriends.jsx:196-209 | after a Delete button the leaderboard offers, that name has no row and the user's own row is still there |
| Friends.Score | src/pages/TrackFriends.jsx:94-96 | the score is the received ranking, and 0 when the platform, the user or the ranking is missing |
| Friends.OwnHandle | src/pages/TrackFriends.jsx:41-45 | the user's own row is the linked handle, or "You" when none is linked |
| Friends.Leaderboard | src/pages/TrackFriends.jsx:142-146 | the rows are a permutation of the own handle (when present) and the friends |
| Friends.LeaderboardOrdered | src/pages/TrackFriends.jsx:142-146 | rows are in ascending score on LeetCode and descending score elsewhere, at any distance |
| Friends.UnrankedHeadsLeetCode | src/pages/TrackFriends.jsx:94-96 | with non-negative rankings, an unranked LeetCode participant (score 0) puts a score-0 row at the top |
| LinkedPlatforms.HandleChange | src/pages/Home.jsx:36-38 | the draft for one platform is set and every other draft is kept |
| LinkedPlatforms.HandleUpdate | src/pages/Home.jsx:40-66 | no email or an empty draft changes nothing and shows no alert; a successful save merges the draft into the stored map, keeps every other platform and shows the success alert; a failed save keeps the map and shows the failure alert |
| LinkedPlatforms.HandleUpdateIdempotent | src/pages/Home.jsx:50-58 | saving the same draft twice stores what saving it once stores |
| LinkedPlatforms.DisplayHandle | src/pages/Home.jsx:91-93 | the display name when there is one; otherwise the part of the email before the first "@"; nothing when both are empty |
| Profile.RejectionMessage | src/pages/Profile.jsx:100-105 | a wrong old password gets its own message; any other rejection shows its message, or the fallback when it has none |
| Profile.ChangePassword | src/pages/Profile.jsx:78-109 | empty fields, then a new password under 6 characters, stop before the provider is asked; the provider is asked exactly when both checks pass; success clears both fields and shows only the success message; a rejection keeps the fields and shows only the error; `changing` ends false |
| Profile.ChangePasswordIgnoresOldMessages | src/pages/Profile.jsx:79-80 | messages shown before an attempt do not affect its result |
| Profile.IconFor | src/pages/Profile.jsx:164-165 | github, leetcode, codechef, hackerrank and codeforces (after lower-casing) each get their own icon; any other name gets the link icon |
| Profile.IconCaseInsensitive | src/pages/Profile.jsx:165 | names that lower-case alike get the same icon |
| Profile.KelvinSignFolds | src/pages/Profile.jsx:165 | a name spelled with the Kelvin sign, which `toLowerCase` maps to "k", finds the HackerRank icon |
| Profile.LinkedPlatformIcons | src/pages/Profile.jsx:36-43 | the three names the home page stores (LeetCode, Codeforces, CodeChef) get their own icons; the fixed names HackerRank and GeeksforGeeks, which the home page lists as not yet available, get the HackerRank icon and the link icon |
| LeetCodeHeatmap.ClassForValue | src/pages/LeetCode.jsx:112-118 | a missing value or zero count is empty; 1 is scale 1, 2-4 scale 2, 5-9 scale 3, 10 and above scale 4; a negative count is scale 1; the class is "color-empty" exactly for a missing value or zero count, and "color-scale-" followed by the level otherwise |
| LeetCodeHeatmap.LevelIsThresholdsReached | src/pages/LeetCode.jsx:112-118 | for a non-negative count the shade's level is how many of the thresholds 1, 2, 5 and 10 it reaches |
| LeetCodeHeatmap.Monotone | src/pages/LeetCode.jsx:112-118 | a larger non-negative count never gets a lighter shade |
| CodeforcesHeatmap.ClassForValue | src/pages/codeforces.jsx:106-112 | the same cut points and class names as the LeetCode page |
| CodeforcesHeatmap.LevelIsThresholdsReached | src/pages/codeforces.jsx:106-112 | for a non-negative count the shade's level is how many thresholds it reaches |
| CodeforcesHeatmap.Monotone | src/pages/codeforces.jsx:106-112 | a larger non-negative count never gets a lighter shade |
| CodeforcesHeatmap.AgreesWithLeetCode | src/pages/codeforces.jsx:106-112 | both pages shade every value alike |
| Sequences.Filter | src/pages/Tasks.jsx:140-145 | the result holds exactly the elements satisfying the predicate, each as often as in the input |
| Sequences.FilterIsSubsequence | src/pages/TrackFriends.jsx:204 | a filter keeps its survivors in their original order |
| Sequences.SortBy | src/pages/Hackathon.jsx:61 | the sort is a permutation of its input |
| Sequences.SortBySorted | src/pages/Tasks.jsx:146-150 | for a comparator that orders every pair, each neighbour pair is in order |
| Sequences.SortByAllEqual | src/pages/Tasks.jsx:149 | a comparator that always returns 0 leaves the list unchanged, because the sort is stable |
| Sequences.SortByKey | src/pages/TrackFriends.jsx:142-146 | a comparator that subtracts integer keys puts any two positions in key order |
| Text.IncludesIffOccurs | src/pages/Tasks.jsx:140 | `includes` holds exactly when the text occurs at some position |
| Text.Trim | src/pages/Tasks.jsx:91 | the result has no whitespace at either end |
| Text.TrimIsSlice | src/pages/Tasks.jsx:91 | the result is a slice of the input with only whitespace cut off on either side |
| Text.Split | src/pages/Tasks.jsx:91 | one piece more than there are separators, none containing the separator |
| Text.SplitFirst | src/pages/Home.jsx:93 | the first piece is everything before the first separator, or the whole string |
| Text.JoinSplit | src/pages/Tasks.jsx:91 | joining the pieces with the separator gives back the string |
| Text.SplitJoin | src/pages/Tasks.jsx:127 | splitting a join of separator-free pieces gives back the pieces |

## Left out

- Network and storage: the backend `fetch`/`axios` calls and the Firestore and Firebase Auth
  calls are not modelled. Their results enter as parameters: the fetched lists, the stored
  maps, a `StoreOutcome` per handler's store call and a `ProviderOutcome`. A rejected read or
  write is modelled as the whole action failing before the page changes its own state,
  which is where the awaited call throws in each handler.
- Time: `Date.now()` and `new Date()` are a `now` parameter. The once-a-second clock tick
  and the two-second alert timers are not modelled.
- Date parsing: contest and hackathon instants are integer milliseconds. Task dates go
  through an abstract `dateOf`. Invalid dates, and the `NaN` comparisons they cause, are not
  modelled.
- Unicode casing and collation: `toLowerCase` is an abstract per-character fold and
  `localeCompare` an abstract comparison. Case mappings that change a string's length are
  not covered. The profile icon lookup folds the ASCII capitals and the Kelvin sign U+212A,
  the characters `toLowerCase` turns into a single ASCII letter. Its only length-changing
  mapping (U+0130 to "i" and a combining dot) leaves a non-ASCII character behind, so that
  name matches no key in JavaScript either.
- String length: JavaScript counts UTF-16 code units and Dafny counts characters. The two
  differ only outside the Basic Multilingual Plane. The 30- and 35-character card limits are
  modelled on characters.
- Hackathons.FilteredHackathons: the prize buttons are a `PrizeTier` datatype instead of
  `parseInt` of the fixed digit strings, which yields the same four thresholds.
- Hackathons.ThumbnailSrc: models a missing field (`undefined`). A stored `null` would read
  "https:null" and is not modelled.
- Friends.Leaderboard: the `fetchRankings` effect that fills `platformData` is not modelled.
  The rankings received so far are a parameter.
- Tasks.Submit: the mapping from Firestore snapshots to a list of tasks (document order) is
  not modelled. The store is a map from document id, and the list the filters see is a
  parameter.
- Profile.IconFor: names such as "constructor", which JavaScript resolves through the object
  prototype, are not modelled.
- `getPlatformIcon`, `getPlatformTagClass` and the calendar URL builders on the contest and
  hackathon pages are not modelled. They only choose icons, colours and link text.
- Rendering, themes, skeleton placeholders, and the pages outside the core (login, signup,
  landing, navigation, routing, footer, alert component, sample and not-found pages) are not
  modelled.

=== FILE: codeforces.dfy ===
/** The submission heatmap's `classForValue` on the Codeforces profile page. */
module CodeforcesHeatmap {
  import opened Wrappers
  import opened Heatmap
  import LeetCodeHeatmap

  /** A missing value or a zero count is empty; then the cuts are below 2, below 5, below 10. */
  function ClassForValue(val: Option<Day>): (shade: Shade)
    ensures CountOf(val) == 0 ==> shade == ColorEmpty
    ensures CountOf(val) == 1 ==> shade == Scale1
    ensures 2 <= CountOf(val) <= 4 ==> shade == Scale2
    ensures 5 <= CountOf(val) <= 9 ==> shade == Scale3
    ensures CountOf(val) >= 10 ==> shade == Scale4
    ensures CountOf(val) < 0 ==> shade == Scale1
    ensures CountOf(val) == 0 <==> shade.ClassName() == "color-empty"
  {
    if val.None? || val.value.count.None? || val.value.count.value == 0 then ColorEmpty
    else if val.value.count.value < 2 then Scale1
    else if val.value.count.value < 5 then Scale2
    else if val.value.count.value < 10 then Scale3
    else Scale4
  }

  /** For a non-negative count the shade's level is the number of thresholds reached. */
  lemma LevelIsThresholdsReached(val: Option<Day>)
    requires CountOf(val) >= 0
    ensures ClassForValue(val).Level() == ThresholdsReached(CountOf(val))
  {
  }

  /** A larger non-negative count never gets a lighter shade. */
  lemma Monotone(a: Option<Day>, b: Option<Day>)
    requires 0 <= CountOf(a) <= CountOf(b)
    ensures ClassForValue(a).Level() <= ClassForValue(b).Level()
  {
    LevelIsThresholdsReached(a);
    LevelIsThresholdsReached(b);
  }

  /** The two pages shade every value alike. */
  lemma AgreesWithLeetCode(val: Option<Day>)
    ensures ClassForValue(val) == LeetCodeHeatmap.ClassForValue(val)
  {
  }
}

=== FILE: contests.dfy ===
/** The contest list page: the platform and status filter, the Ongoing / Upcoming / Past
    classification, the "starts in" countdown and the Load-More window over the filtered list.
    Timestamps are integer milliseconds and "now" is a parameter. */
module Contests {
  import opened Wrappers
  import opened Sequences

  datatype Contest = Contest(name: string, platform: string, startTime: int, endTime: int, url: string)

  /** "All" switches a filter off; the status buttons. */
  const All := "All"
  const Statuses: seq<string> := ["All", "Ongoing", "Upcoming", "Past"]

  // ---------------------------------------------------------------------------
  // Status of a contest at a given instant
  // ---------------------------------------------------------------------------

  predicate IsOngoing(c: Contest, now: int) { now >= c.startTime && now <= c.endTime }
  predicate IsUpcoming(c: Contest, now: int) { now < c.startTime }
  predicate IsPast(c: Contest, now: int) { now > c.endTime }

  /** A contest that does not end before it starts is in exactly one phase at every instant. */
  lemma ExactlyOnePhase(c: Contest, now: int)
    requires c.startTime <= c.endTime
    ensures IsOngoing(c, now) || IsUpcoming(c, now) || IsPast(c, now)
    ensures !(IsOngoing(c, now) && IsUpcoming(c, now))
    ensures !(IsOngoing(c, now) && IsPast(c, now))
    ensures !(IsUpcoming(c, now) && IsPast(c, now))
  {
  }

  // ---------------------------------------------------------------------------
  // The filter
  // ---------------------------------------------------------------------------

  predicate MatchesPlatform(c: Contest, platform: string)
  {
    platform == All || c.platform == platform
  }

  predicate MatchesStatus(c: Contest, status: string, now: int)
  {
    || status == All
    || (status == "Ongoing" && IsOngoing(c, now))
    || (status == "Upcoming" && IsUpcoming(c, now))
    || (status == "Past" && IsPast(c, now))
  }

  /** The contests the page lists for the selected platform and status at `now`. */
  function FilteredContests(contests: seq<Contest>, platform: string, status: string, now: int): (r: seq<Contest>)
    ensures forall c :: c in r <==> c in contests && MatchesPlatform(c, platform) && MatchesStatus(c, status, now)
    ensures forall c :: multiset(r)[c] ==
              if MatchesPlatform(c, platform) && MatchesStatus(c, status, now) then multiset(contests)[c] else 0
    ensures platform != All ==> forall c :: c in r ==> c.platform == platform
    ensures status == "Upcoming" ==> forall c :: c in r ==> now < c.startTime
    ensures status !in Statuses ==> r == []
  {
    Filter(contests, c => MatchesPlatform(c, platform) && MatchesStatus(c, status, now))
  }

  /** The listed contests appear in the order the backend sent them. */
  lemma FilteredIsSubsequence(contests: seq<Contest>, platform: string, status: string, now: int)
    ensures IsSubsequence(FilteredContests(contests, platform, status, now), contests)
  {
    FilterIsSubsequence(contests, c => MatchesPlatform(c, platform) && MatchesStatus(c, status, now));
  }

  /** With both filters on "All" every contest is listed, in order. */
  lemma FilterAllKeepsEverything(contests: seq<Contest>, now: int)
    ensures FilteredContests(contests, All, All, now) == contests
  {
    FilterKeepsAll(contests, c => MatchesPlatform(c, All) && MatchesStatus(c, All, now));
  }

  // ---------------------------------------------------------------------------
  // The countdown
  // ---------------------------------------------------------------------------

  const MsPerSecond := 1000
  const MsPerMinute := 60 * MsPerSecond
  const MsPerHour := 60 * MsPerMinute
  const MsPerDay := 24 * MsPerHour

  datatype Countdown = Countdown(days: int, hours: int, minutes: int, seconds: int)

  /** The whole milliseconds a countdown stands for. */
  function Millis(c: Countdown): int
  {
    c.days * MsPerDay + c.hours * MsPerHour + c.minutes * MsPerMinute + c.seconds * MsPerSecond
  }

  /** Every part is a non-negative count below the size of the next larger unit. */
  predicate IsNormal(c: Countdown)
  {
    c.days >= 0 && 0 <= c.hours < 24 && 0 <= c.minutes < 60 && 0 <= c.seconds < 60
  }

  /** The time left before `startTime`, or nothing once the contest has started
      (the card then reads "Contest Ended"). */
  function CountdownParts(startTime: int, now: int): (r: Option<Countdown>)
    ensures r.None? <==> startTime - now <= 0
  {
    var distance := startTime - now;
    if distance <= 0 then None
    else
      Some(Countdown(
        distance / MsPerDay,
        (distance % MsPerDay) / MsPerHour,
        (distance % MsPerHour) / MsPerMinute,
        (distance % MsPerMinute) / MsPerSecond))
  }

  /** Euclidean division is determined by quotient and remainder. */
  lemma DivModUnique(x: int, b: int, q: int, r: int)
    requires b > 0 && 0 <= r < b && x == q * b + r
    ensures x / b == q && x % b == r
  {
    var k := q - x / b;
    assert k * b == x % b - r;
    if k > 0 {
      MulAtLeast(k, b);
    } else if k < 0 {
      MulAtLeast(-k, b);
    }
  }

  lemma MulAtLeast(k: int, b: int)
    requires k >= 1 && b > 0
    ensures k * b >= b
  {
  }

  /** Taking the remainder by a multiple of `b` first does not change the remainder by `b`. */
  lemma ModOfMod(x: int, b: int, k: int)
    requires b > 0 && k > 0
    ensures (x % (k * b)) % b == x % b
  {
    var q, r := x / (k * b), x % (k * b);
    assert x == q * (k * b) + r;
    DivModUnique(r, b, r / b, r % b);
    DivModUnique(x, b, q * k + r / b, r % b);
  }

  /** The parts are normalised and add up to the distance rounded down to whole seconds. */
  lemma {:induction false} CountdownExact(startTime: int, now: int)
    requires startTime - now > 0
    ensures IsNormal(CountdownParts(startTime, now).value)
    ensures Millis(CountdownParts(startTime, now).value)
            == (startTime - now) - (startTime - now) % MsPerSecond
  {
    var d := startTime - now;
    var c := CountdownParts(startTime, now).value;
    ModOfMod(d, MsPerHour, 24);
    ModOfMod(d, MsPerMinute, 60);
    ModOfMod(d, MsPerSecond, 60);
    var rd, rh, rm := d % MsPerDay, d % MsPerHour, d % MsPerMinute;
    DivModUnique(rd, MsPerHour, rd / MsPerHour, rh);
    DivModUnique(rh, MsPerMinute, rh / MsPerMinute, rm);
    DivModUnique(rm, MsPerSecond, rm / MsPerSecond, d % MsPerSecond);
    assert d == c.days * MsPerDay + rd;
    assert rd == c.hours * MsPerHour + rh;
    assert rh == c.minutes * MsPerMinute + rm;
    assert rm == c.seconds * MsPerSecond + d % MsPerSecond;
    assert rd < MsPerDay && rh < MsPerHour && rm < MsPerMinute;
  }

  /** No other normalised countdown stands for the same whole seconds: the parts are
      the unique days / hours / minutes / seconds decomposition of the distance. */
  lemma {:induction false} CountdownUnique(startTime: int, now: int, c: Countdown)
    requires startTime - now > 0
    requires IsNormal(c) && Millis(c) == (startTime - now) - (startTime - now) % MsPerSecond
    ensures CountdownParts(startTime, now) == Some(c)
  {
    var d := startTime - now;
    var lowS := d % MsPerSecond;
    var lowM := c.seconds * MsPerSecond + lowS;
    var lowH := c.minutes * MsPerMinute + lowM;
    var lowD := c.hours * MsPerHour + lowH;
    assert d == c.days * MsPerDay + lowD;
    DivModUnique(d, MsPerDay, c.days, lowD);
    ModOfMod(d, MsPerHour, 24);
    ModOfMod(d, MsPerMinute, 60);
    ModOfMod(d, MsPerSecond, 60);
    DivModUnique(lowD, MsPerHour, c.hours, lowH);
    DivModUnique(d, MsPerHour, c.days * 24 + c.hours, lowH);
    DivModUnique(lowH, MsPerMinute, c.minutes, lowM);
    DivModUnique(d, MsPerMinute, (c.days * 24 + c.hours) * 60 + c.minutes, lowM);
    DivModUnique(lowM, MsPerSecond, c.seconds, lowS);
  }

  /** A contest that has started but not ended shows "Contest Ended" rather than a countdown. */
  lemma OngoingHasNoCountdown(c: Contest, now: int)
    requires IsOngoing(c, now)
    ensures CountdownParts(c.startTime, now) == None
  {
  }

  // ---------------------------------------------------------------------------
  // The Load-More window
  // ---------------------------------------------------------------------------

  const PageSize: nat := 10

  /** What the page remembers between renders. */
  datatype View = View(platform: string, status: string, visibleCount: nat, loading: bool)

  /** A platform button selects the platform and goes back to the first page. */
  function SelectPlatform(v: View, platform: string): (r: View)
    ensures r.platform == platform && r.visibleCount == PageSize
    ensures r.status == v.status && r.loading == v.loading
  {
    v.(platform := platform, visibleCount := PageSize)
  }

  /** A status button selects the status and goes back to the first page. */
  function SelectStatus(v: View, status: string): (r: View)
    ensures r.status == status && r.visibleCount == PageSize
    ensures r.platform == v.platform && r.loading == v.loading
  {
    v.(status := status, visibleCount := PageSize)
  }

  /** The "Load More" button widens the window by one page and changes nothing else. */
  function LoadMore(v: View): (r: View)
    ensures r.visibleCount == v.visibleCount + PageSize
    ensures r.platform == v.platform && r.status == v.status && r.loading == v.loading
  {
    v.(visibleCount := v.visibleCount + PageSize)
  }

  /** The contest cards on screen: none while loading, otherwise the first `visibleCount`
      filtered contests (`slice(0, visibleCount)`). */
  function Displayed(v: View, contests: seq<Contest>, now: int): (r: seq<Contest>)
    ensures v.loading ==> r == []
    ensures |r| <= v.visibleCount
    ensures var f := FilteredContests(contests, v.platform, v.status, now);
            && |r| <= |f| && r == f[..|r|]
            && (!v.loading ==> |r| == if |f| < v.visibleCount then |f| else v.visibleCount)
  {
    if v.loading then []
    else
      var f := FilteredContests(contests, v.platform, v.status, now);
      if |f| <= v.visibleCount then f else f[..v.visibleCount]
  }

  /** The "Load More" button is on screen. */
  predicate ShowsLoadMore(v: View, contests: seq<Contest>, now: int)
  {
    !v.loading && |FilteredContests(contests, v.platform, v.status, now)| > v.visibleCount
  }

  /** Once loaded, the button shows exactly when some filtered contest is still hidden,
      and pressing it reveals at least one more and at most a page more. */
  lemma LoadMoreWhenHidden(v: View, contests: seq<Contest>, now: int)
    requires !v.loading
    ensures ShowsLoadMore(v, contests, now)
            <==> |Displayed(v, contests, now)| < |FilteredContests(contests, v.platform, v.status, now)|
    ensures ShowsLoadMore(v, contests, now) ==>
              |Displayed(v, contests, now)| < |Displayed(LoadMore(v), contests, now)|
                                            <= |Displayed(v, contests, now)| + PageSize
  {
  }

  /** Changing a filter goes back to showing at most one page. */
  lemma FilterChangeResetsWindow(v: View, platform: string, status: string, contests: seq<Contest>, now: int)
    ensures |Displayed(SelectPlatform(v, platform), contests, now)| <= PageSize
    ensures |Displayed(SelectStatus(v, status), contests, now)| <= PageSize
  {
  }
}

=== FILE: friends.dfy ===
/** The friend tracker: per-platform friend lists kept both in the store and on the page,
    duplicate-free adding, deleting by name, score lookup with a default of 0, and the
    leaderboard order (ascending global rank on LeetCode, descending rating elsewhere). */
module Friends {
  import opened Wrappers
  import opened Sequences
  import opened Storage

  /** The leaderboard tabs. */
  datatype Platform = LeetCode | Codeforces | CodeChef

  /** The tab key, which also names the friend document and appears in the alert. */
  function Key(p: Platform): string
  {
    match p
    case LeetCode => "leetcode"
    case Codeforces => "codeforces"
    case CodeChef => "codechef"
  }

  /** The key under which the linked-platforms map stores the user's own handle. */
  function LinkedName(p: Platform): string
  {
    match p
    case LeetCode => "LeetCode"
    case Codeforces => "Codeforces"
    case CodeChef => "CodeChef"
  }

  /** One friend list per platform. */
  datatype FriendLists = FriendLists(leetcode: seq<string>, codeforces: seq<string>, codechef: seq<string>)
  {
    function Of(p: Platform): seq<string>
    {
      match p
      case LeetCode => leetcode
      case Codeforces => codeforces
      case CodeChef => codechef
    }

    /** `{ ...prev, [p]: names }`: replaces one platform's list and keeps the others. */
    function With(p: Platform, names: seq<string>): (r: FriendLists)
      ensures r.Of(p) == names
      ensures forall q :: q != p ==> r.Of(q) == Of(q)
    {
      match p
      case LeetCode => this.(leetcode := names)
      case Codeforces => this.(codeforces := names)
      case CodeChef => this.(codechef := names)
    }
  }

  datatype Alert = Alert(message: string, kind: string)

  /** `stored` are the friend documents (a missing document or field reads as an empty list),
      `local` is the page's `friendsData`, `input` the text box. */
  datatype State = State(stored: FriendLists, local: FriendLists, input: string, alert: Alert)

  predicate NoDuplicates(names: seq<string>)
  {
    forall i, j :: 0 <= i < j < |names| ==> names[i] != names[j]
  }

  /** `addFriend` on platform `p` for the signed-in `user` ("" when there is none). The list it
      extends is the one read back from the store, and the page's copy is replaced by the result.
      If the store rejects the read or the write, the handler stops before the page changes. */
  function AddFriend(s: State, user: string, p: Platform, outcome: StoreOutcome): (s': State)
    ensures s.input == "" || user == "" || outcome == Failed ==> s' == s
    ensures s.input in s.stored.Of(p) ==> s' == s
    ensures s.input != "" && user != "" && outcome == Succeeded && s.input !in s.stored.Of(p) ==>
              && s'.stored.Of(p) == s.stored.Of(p) + [s.input]
              && s'.local.Of(p) == s'.stored.Of(p)
              && s'.input == ""
              && s'.alert == Alert(s.input + " added successfully to " + Key(p), "success")
    ensures forall q :: q != p ==> s'.stored.Of(q) == s.stored.Of(q) && s'.local.Of(q) == s.local.Of(q)
  {
    if s.input == "" || user == "" then s
    else
      var current := s.stored.Of(p);
      if s.input in current || outcome == Failed then s
      else
        var updated := current + [s.input];
        State(s.stored.With(p, updated), s.local.With(p, updated), "",
              Alert(s.input + " added successfully to " + Key(p), "success"))
  }

  /** Adding keeps a duplicate-free stored list duplicate-free, whatever the input. */
  lemma AddFriendKeepsNoDuplicates(s: State, user: string, p: Platform, outcome: StoreOutcome)
    requires NoDuplicates(s.stored.Of(p))
    ensures NoDuplicates(AddFriend(s, user, p, outcome).stored.Of(p))
  {
    var s' := AddFriend(s, user, p, outcome);
    if s' != s {
      var l := s'.stored.Of(p);
      forall i, j | 0 <= i < j < |l|
        ensures l[i] != l[j]
      {
        if j == |l| - 1 {
          assert l[i] in s.stored.Of(p);
        }
      }
    }
  }

  /** The Delete button: every entry equal to `name` leaves the page's list for `p`, which is
      then written back to the store; the page keeps its list if the write is rejected
      (as it is when nobody is signed in). */
  function DeleteFriend(s: State, p: Platform, name: string, outcome: StoreOutcome): (s': State)
    ensures outcome == Failed ==> s' == s
    ensures outcome == Succeeded ==>
              && s'.local.Of(p) == s'.stored.Of(p)
              && name !in s'.local.Of(p)
              && forall x :: x != name ==> multiset(s'.local.Of(p))[x] == multiset(s.local.Of(p))[x]
    ensures forall q :: q != p ==> s'.stored.Of(q) == s.stored.Of(q) && s'.local.Of(q) == s.local.Of(q)
    ensures s'.input == s.input && s'.alert == s.alert
  {
    if outcome == Failed then s
    else
      var updated := Filter(s.local.Of(p), friend => friend != name);
      s.(stored := s.stored.With(p, updated), local := s.local.With(p, updated))
  }

  /** Deleting keeps the remaining friends in their order. */
  lemma DeleteKeepsOrder(s: State, p: Platform, name: string)
    ensures IsSubsequence(DeleteFriend(s, p, name, Succeeded).local.Of(p), s.local.Of(p))
  {
    FilterIsSubsequence(s.local.Of(p), friend => friend != name);
  }

  /** A row offers Delete only for names other than the user's own handle. */
  predicate DeleteOffered(name: string, own: string)
  {
    name != own
  }

  // ---------------------------------------------------------------------------
  // Scores and the leaderboard
  // ---------------------------------------------------------------------------

  /** One user's entry in a ranking response; the ranking may be absent. */
  datatype Entry = Entry(ranking: Option<int>)

  /** The ranking responses received so far, per platform and user name. */
  type Rankings = map<Platform, map<string, Entry>>

  /** `platformData[p]?.[user]?.ranking || 0`. */
  function Score(data: Rankings, p: Platform, user: string): (score: int)
    ensures p !in data || user !in data[p] || data[p][user].ranking.None? ==> score == 0
    ensures p in data && user in data[p] && data[p][user].ranking.Some? ==> score == data[p][user].ranking.value
  {
    if p in data && user in data[p] then data[p][user].ranking.GetOr(0) else 0
  }

  /** The user's own handle for a tab: the linked username, or "You" when none is linked. */
  function OwnHandle(linked: map<string, string>, p: Platform): (own: string)
    ensures own != ""
    ensures LinkedName(p) in linked && linked[LinkedName(p)] != "" ==> own == linked[LinkedName(p)]
    ensures !(LinkedName(p) in linked && linked[LinkedName(p)] != "") ==> own == "You"
  {
    if LinkedName(p) in linked && linked[LinkedName(p)] != "" then linked[LinkedName(p)] else "You"
  }

  /** The names on a tab: the user's own handle when there is one, then the friends. */
  function Participants(own: string, friends: seq<string>): seq<string>
  {
    (if own != "" then [own] else []) + friends
  }

  /** The comparator `scoreA - scoreB` on LeetCode and `scoreB - scoreA` elsewhere. */
  predicate RanksBefore(data: Rankings, p: Platform, a: string, b: string)
  {
    (if p == LeetCode then Score(data, p, a) - Score(data, p, b) else Score(data, p, b) - Score(data, p, a)) <= 0
  }

  /** The leaderboard rows of a tab. */
  function Leaderboard(data: Rankings, p: Platform, own: string, friends: seq<string>): (rows: seq<string>)
    ensures multiset(rows) == multiset(Participants(own, friends))
    ensures |rows| == |friends| + (if own != "" then 1 else 0)
  {
    SortBy(Participants(own, friends), (a, b) => RanksBefore(data, p, a, b))
  }

  /** Rows are in ascending score on LeetCode and descending score elsewhere, at any distance. */
  lemma LeaderboardOrdered(data: Rankings, p: Platform, own: string, friends: seq<string>, i: int, j: int)
    requires 0 <= i <= j < |Leaderboard(data, p, own, friends)|
    ensures var rows := Leaderboard(data, p, own, friends);
            if p == LeetCode then Score(data, p, rows[i]) <= Score(data, p, rows[j])
            else Score(data, p, rows[i]) >= Score(data, p, rows[j])
  {
    var le := (a, b) => RanksBefore(data, p, a, b);
    var key := (name: string) => if p == LeetCode then Score(data, p, name) else -Score(data, p, name);
    SortByKey(Participants(own, friends), le, key, i, j);
  }

  /** On LeetCode, a participant with no ranking (score 0) heads a leaderboard whose
      rankings are non-negative. */
  lemma UnrankedHeadsLeetCode(data: Rankings, own: string, friends: seq<string>, name: string)
    requires name in Participants(own, friends) && Score(data, LeetCode, name) == 0
    requires forall x :: x in Participants(own, friends) ==> Score(data, LeetCode, x) >= 0
    ensures Score(data, LeetCode, Leaderboard(data, LeetCode, own, friends)[0]) == 0
  {
    var rows := Leaderboard(data, LeetCode, own, friends);
    assert name in multiset(rows);
    var k :| 0 <= k < |rows| && rows[k] == name;
    LeaderboardOrdered(data, LeetCode, own, friends, 0, k);
    assert rows[0] in multiset(Participants(own, friends));
  }

  /** A Delete button the leaderboard offers takes that row off the tab and leaves the
      user's own row in place. */
  lemma DeleteRemovesRow(data: Rankings, s: State, p: Platform, own: string, name: string)
    requires DeleteOffered(name, own)
    ensures var rows := Leaderboard(data, p, own, DeleteFriend(s, p, name, Succeeded).local.Of(p));
            name !in rows && (own != "" ==> own in rows)
  {
    var friends := DeleteFriend(s, p, name, Succeeded).local.Of(p);
    var rows := Leaderboard(data, p, own, friends);
    assert name !in Participants(own, friends);
    assert multiset(rows)[name] == 0;
    if own != "" {
      assert own in Participants(own, friends);
      assert multiset(rows)[own] > 0;
    }
  }
}

=== FILE: hackathons.dfy ===
/** The hackathon list page: the mode filter, the minimum-prize filter, the newest-first
    sort by posted date, and the rule that turns a thumbnail reference into an image URL. */
module Hackathons {
  import opened Wrappers
  import opened Sequences

  /** `postedDate` is the posting instant in milliseconds; `thumbnailUrl` is `None` when the
      record has no thumbnail field. */
  datatype Hackathon = Hackathon(
    title: string, mode: string, prize: int, postedDate: int, thumbnailUrl: Option<string>, url: string)

  const All := "All"

  /** A prize button: "All", or one of the fixed amounts the page parses from its digit strings. */
  datatype PrizeTier = AnyPrize | AtLeast(amount: int)

  const PrizeTiers: seq<PrizeTier> := [AnyPrize, AtLeast(10000), AtLeast(50000), AtLeast(100000)]

  predicate MatchesMode(h: Hackathon, modeFilter: string)
  {
    modeFilter == All || h.mode == modeFilter
  }

  predicate MatchesPrize(h: Hackathon, tier: PrizeTier)
  {
    tier.AnyPrize? || h.prize >= tier.amount
  }

  /** The sort comparator `b.postedDate - a.postedDate`: `a` may stand before `b` when it is not older. */
  predicate NewerFirst(a: Hackathon, b: Hackathon)
  {
    b.postedDate - a.postedDate <= 0
  }

  /** The hackathons the page lists: mode filter, then prize filter, then newest first. */
  function FilteredHackathons(hackathons: seq<Hackathon>, modeFilter: string, tier: PrizeTier): (r: seq<Hackathon>)
    ensures forall h :: h in r ==> h in hackathons && MatchesMode(h, modeFilter) && MatchesPrize(h, tier)
    ensures modeFilter != All ==> forall h :: h in r ==> h.mode == modeFilter
    ensures tier.AtLeast? ==> forall h :: h in r ==> h.prize >= tier.amount
  {
    var byMode := Filter(hackathons, h => MatchesMode(h, modeFilter));
    var byPrize := Filter(byMode, h => MatchesPrize(h, tier));
    SortBy(byPrize, NewerFirst)
  }

  /** The sort loses and adds nothing: the result holds each matching hackathon as often
      as the input does, and nothing else. */
  lemma FilteredIsPermutationOfMatches(hackathons: seq<Hackathon>, modeFilter: string, tier: PrizeTier)
    ensures multiset(FilteredHackathons(hackathons, modeFilter, tier))
            == multiset(Filter(hackathons, h => MatchesMode(h, modeFilter) && MatchesPrize(h, tier)))
  {
    FilterFilter(hackathons, h => MatchesMode(h, modeFilter), h => MatchesPrize(h, tier),
                 h => MatchesMode(h, modeFilter) && MatchesPrize(h, tier));
  }

  /** With both filters on "All" the page lists every hackathon, reordered only. */
  lemma NoFilterIsPermutation(hackathons: seq<Hackathon>)
    ensures multiset(FilteredHackathons(hackathons, All, AnyPrize)) == multiset(hackathons)
  {
    FilteredIsPermutationOfMatches(hackathons, All, AnyPrize);
    FilterKeepsAll(hackathons, h => MatchesMode(h, All) && MatchesPrize(h, AnyPrize));
  }

  /** Any two listed hackathons are in non-increasing order of posting date. */
  lemma FilteredNewestFirst(hackathons: seq<Hackathon>, modeFilter: string, tier: PrizeTier, i: int, j: int)
    requires 0 <= i <= j < |FilteredHackathons(hackathons, modeFilter, tier)|
    ensures var r := FilteredHackathons(hackathons, modeFilter, tier);
            r[i].postedDate >= r[j].postedDate
  {
    var byMode := Filter(hackathons, h => MatchesMode(h, modeFilter));
    var byPrize := Filter(byMode, h => MatchesPrize(h, tier));
    SortByKey(byPrize, NewerFirst, (h: Hackathon) => -h.postedDate, i, j);
  }

  /** A higher minimum prize lists a sub-multiset of what a lower one lists. */
  lemma HigherTierListsFewer(hackathons: seq<Hackathon>, modeFilter: string, low: int, high: int)
    requires low <= high
    ensures multiset(FilteredHackathons(hackathons, modeFilter, AtLeast(high)))
            <= multiset(FilteredHackathons(hackathons, modeFilter, AtLeast(low)))
  {
    var byMode := Filter(hackathons, h => MatchesMode(h, modeFilter));
    var lo := Filter(byMode, h => MatchesPrize(h, AtLeast(low)));
    var hi := Filter(byMode, h => MatchesPrize(h, AtLeast(high)));
    assert forall h :: multiset(hi)[h] <= multiset(lo)[h];
  }

  /** A tier that every hackathon passing `strict` also passes lists at least as much. */
  lemma StricterTierListsFewer(hackathons: seq<Hackathon>, modeFilter: string, loose: PrizeTier, strict: PrizeTier)
    requires forall h :: MatchesPrize(h, strict) ==> MatchesPrize(h, loose)
    ensures multiset(FilteredHackathons(hackathons, modeFilter, strict))
            <= multiset(FilteredHackathons(hackathons, modeFilter, loose))
  {
    FilteredIsPermutationOfMatches(hackathons, modeFilter, strict);
    FilteredIsPermutationOfMatches(hackathons, modeFilter, loose);
    var s := Filter(hackathons, h => MatchesMode(h, modeFilter) && MatchesPrize(h, strict));
    var l := Filter(hackathons, h => MatchesMode(h, modeFilter) && MatchesPrize(h, loose));
    assert forall h :: multiset(s)[h] <= multiset(l)[h];
  }

  /** Moving right along the prize buttons never lists more. */
  lemma LaterTierListsFewer(hackathons: seq<Hackathon>, modeFilter: string, i: int, j: int)
    requires 0 <= i <= j < |PrizeTiers|
    ensures multiset(FilteredHackathons(hackathons, modeFilter, PrizeTiers[j]))
            <= multiset(FilteredHackathons(hackathons, modeFilter, PrizeTiers[i]))
  {
    assert forall h :: MatchesPrize(h, PrizeTiers[j]) ==> MatchesPrize(h, PrizeTiers[i]);
    StricterTierListsFewer(hackathons, modeFilter, PrizeTiers[i], PrizeTiers[j]);
  }

  /** The image source: a value starting with "http" is used as it is; anything else,
      including a missing field (rendered as "undefined"), gets "https:" in front. */
  function ThumbnailSrc(thumbnailUrl: Option<string>): (src: string)
    ensures thumbnailUrl.Some? && StartsWithHttp(thumbnailUrl.value) ==> src == thumbnailUrl.value
    ensures thumbnailUrl.Some? && !StartsWithHttp(thumbnailUrl.value) ==> src == "https:" + thumbnailUrl.value
    ensures thumbnailUrl.None? ==> src == "https:undefined"
    ensures StartsWithHttp(src)
  {
    match thumbnailUrl
    case Some(u) => if StartsWithHttp(u) then u else "https:" + u
    case None => "https:undefined"
  }

  predicate StartsWithHttp(s: string)
  {
    |s| >= 4 && s[..4] == "http"
  }

  /** Applying the rule to its own output changes nothing. */
  lemma ThumbnailSrcIdempotent(thumbnailUrl: Option<string>)
    ensures ThumbnailSrc(Some(ThumbnailSrc(thumbnailUrl))) == ThumbnailSrc(thumbnailUrl)
  {
  }
}

=== FILE: heatmap.dfy ===
/** The vocabulary the two submission heatmaps share: a calendar day's value and the five
    CSS classes a cell can take. */
module Heatmap {
  import opened Wrappers

  /** A calendar value; `count` is `None` when the field is missing. */
  datatype Day = Day(date: string, count: Option<int>)

  datatype Shade = ColorEmpty | Scale1 | Scale2 | Scale3 | Scale4
  {
    /** The CSS class: "color-empty" for the empty shade, otherwise "color-scale-" followed
        by the shade's level. */
    function ClassName(): (name: string)
      ensures this == ColorEmpty <==> name == "color-empty"
      ensures this != ColorEmpty ==> name == "color-scale-" + [('0' as int + Level()) as char]
    {
      match this
      case ColorEmpty => "color-empty"
      case Scale1 => "color-scale-1"
      case Scale2 => "color-scale-2"
      case Scale3 => "color-scale-3"
      case Scale4 => "color-scale-4"
    }

    /** How dark the cell is, from 0 (empty) to 4. */
    function Level(): nat
    {
      match this
      case ColorEmpty => 0
      case Scale1 => 1
      case Scale2 => 2
      case Scale3 => 3
      case Scale4 => 4
    }
  }

  /** The count a value stands for: a missing value or count reads as 0. */
  function CountOf(val: Option<Day>): int
  {
    match val
    case None => 0
    case Some(d) => d.count.GetOr(0)
  }

  /** The reference scale: how many of the thresholds 1, 2, 5 and 10 a count reaches. */
  function ThresholdsReached(count: int): nat
  {
    (if count >= 1 then 1 else 0) + (if count >= 2 then 1 else 0)
    + (if count >= 5 then 1 else 0) + (if count >= 10 then 1 else 0)
  }
}

=== FILE: home.dfy ===
/** The home page: the per-platform username drafts, saving one of them into the stored
    linked-platforms map, and the handle shown in the header. */
module LinkedPlatforms {
  import opened Wrappers
  import opened Storage
  import Text

  /** `handleChange`: the draft for `platform` becomes `value`. */
  function HandleChange(drafts: map<string, string>, platform: string, value: string): (r: map<string, string>)
    ensures r.Keys == drafts.Keys + {platform}
    ensures r[platform] == value
    ensures forall k :: k in drafts && k != platform ==> r[k] == drafts[k]
  {
    drafts[platform := value]
  }

  /** The stored `platforms` map (empty when the document or field is missing) and the alert shown. */
  datatype Update = Update(platforms: map<string, string>, alert: Option<string>)

  /** `handleUpdate(platform)`. Without a signed-in email (`""`), or with an empty or missing
      draft, nothing happens. Otherwise the draft is merged into the stored map, if the store
      accepts the write. */
  function HandleUpdate(email: string, drafts: map<string, string>, platform: string,
                        stored: map<string, string>, outcome: StoreOutcome): (u: Update)
    ensures email == "" || platform !in drafts || drafts[platform] == "" ==> u == Update(stored, None)
    ensures email != "" && platform in drafts && drafts[platform] != "" && outcome == Succeeded ==>
              && u.platforms.Keys == stored.Keys + {platform}
              && u.platforms[platform] == drafts[platform]
              && u.alert == Some(platform + " username updated successfully!")
    ensures forall k :: k in stored && k != platform ==> k in u.platforms && u.platforms[k] == stored[k]
    ensures email != "" && platform in drafts && drafts[platform] != "" && outcome == Failed ==>
              u.alert == Some("Failed to update username.")
    ensures outcome == Failed ==> u.platforms == stored
  {
    if email == "" then Update(stored, None)
    else if platform !in drafts || drafts[platform] == "" then Update(stored, None)
    else match outcome
      case Succeeded => Update(stored[platform := drafts[platform]], Some(platform + " username updated successfully!"))
      case Failed => Update(stored, Some("Failed to update username."))
  }

  /** Saving the same draft twice stores what saving it once stores. */
  lemma HandleUpdateIdempotent(email: string, drafts: map<string, string>, platform: string, stored: map<string, string>)
    ensures var once := HandleUpdate(email, drafts, platform, stored, Succeeded).platforms;
            HandleUpdate(email, drafts, platform, once, Succeeded).platforms == once
  {
  }

  /** The header handle: the display name if there is one, else the part of the email before
      the first "@"; nothing when both are empty. */
  function DisplayHandle(displayName: string, email: string): (h: Option<string>)
    ensures displayName != "" ==> h == Some(displayName)
    ensures displayName == "" && email == "" ==> h == None
    ensures displayName == "" && email != "" ==>
              && h.Some? && '@' !in h.value && |h.value| <= |email| && email[..|h.value|] == h.value
              && (|h.value| < |email| ==> email[|h.value|] == '@')
  {
    if displayName != "" then Some(displayName)
    else if email != "" then
      Text.SplitFirst(email, '@');
      Some(Text.Split(email, '@')[0])
    else None
  }
}

=== FILE: leetcode.dfy ===
/** The submission heatmap's `classForValue` on the LeetCode profile page. */
module LeetCodeHeatmap {
  import opened Wrappers
  import opened Heatmap

  /** A missing value or a zero count is empty; then the cuts are below 2, below 5, below 10. */
  function ClassForValue(val: Option<Day>): (shade: Shade)
    ensures CountOf(val) == 0 ==> shade == ColorEmpty
    ensures CountOf(val) == 1 ==> shade == Scale1
    ensures 2 <= CountOf(val) <= 4 ==> shade == Scale2
    ensures 5 <= CountOf(val) <= 9 ==> shade == Scale3
    ensures CountOf(val) >= 10 ==> shade == Scale4
    ensures CountOf(val) < 0 ==> shade == Scale1
    ensures CountOf(val) == 0 <==> shade.ClassName() == "color-empty"
  {
    if val.None? || val.value.count.None? || val.value.count.value == 0 then ColorEmpty
    else if val.value.count.value < 2 then Scale1
    else if val.value.count.value < 5 then Scale2
    else if val.value.count.value < 10 then Scale3
    else Scale4
  }

  /** For a non-negative count the shade's level is the number of thresholds reached. */
  lemma LevelIsThresholdsReached(val: Option<Day>)
    requires CountOf(val) >= 0
    ensures ClassForValue(val).Level() == ThresholdsReached(CountOf(val))
  {
  }

  /** A larger non-negative count never gets a lighter shade. */
  lemma Monotone(a: Option<Day>, b: Option<Day>)
    requires 0 <= CountOf(a) <= CountOf(b)
    ensures ClassForValue(a).Level() <= ClassForValue(b).Level()
  {
    LevelIsThresholdsReached(a);
    LevelIsThresholdsReached(b);
  }
}

=== FILE: profile.dfy ===
/** The profile page: the password-change handler as a state transition over the form, with
    the identity provider's answer as an input, and the icon chosen for a linked platform. */
module Profile {
  import Text

  /** The change-password form. */
  datatype PasswordForm = PasswordForm(
    oldPassword: string, newPassword: string, error: string, success: string, changing: bool)

  /** What reauthentication followed by the password update came to: success, or the
      error's `code` and `message` ("" when absent). */
  datatype ProviderOutcome = Changed | Rejected(code: string, message: string)

  const FillBoth := "Please fill in both fields."
  const TooShort := "New password must be at least 6 characters."
  const Done := "Password changed successfully!"
  const WrongOld := "Old password is incorrect."
  const Fallback := "Failed to change password."
  const MinLength := 6

  /** The form after the handler, and whether it called the provider. */
  datatype Attempt = Attempt(form: PasswordForm, calledProvider: bool)

  /** The message a rejection shows. */
  function RejectionMessage(code: string, message: string): (m: string)
    ensures code == "auth/wrong-password" ==> m == WrongOld
    ensures code != "auth/wrong-password" && message != "" ==> m == message
    ensures code != "auth/wrong-password" && message == "" ==> m == Fallback
  {
    if code == "auth/wrong-password" then WrongOld
    else if message != "" then message
    else Fallback
  }

  /** `handleChangePassword`: clears both messages, checks the fields (emptiness first, then
      length), and only then asks the provider; `changing` is back to false once it answers. */
  function ChangePassword(f: PasswordForm, outcome: ProviderOutcome): (a: Attempt)
    ensures f.oldPassword == "" || f.newPassword == "" ==>
              a == Attempt(f.(error := FillBoth, success := ""), false)
    ensures f.oldPassword != "" && f.newPassword != "" && |f.newPassword| < MinLength ==>
              a == Attempt(f.(error := TooShort, success := ""), false)
    ensures a.calledProvider <==> f.oldPassword != "" && |f.newPassword| >= MinLength
    ensures a.calledProvider ==> !a.form.changing
    ensures !a.calledProvider ==> a.form.changing == f.changing
    ensures a.calledProvider && outcome.Changed? ==>
              a.form == PasswordForm("", "", "", Done, false)
    ensures a.calledProvider && outcome.Rejected? ==>
              a.form == f.(error := RejectionMessage(outcome.code, outcome.message), success := "", changing := false)
    ensures a.form.error == "" || a.form.success == ""
  {
    var cleared := f.(error := "", success := "");
    if f.oldPassword == "" || f.newPassword == "" then Attempt(cleared.(error := FillBoth), false)
    else if |f.newPassword| < MinLength then Attempt(cleared.(error := TooShort), false)
    else
      var busy := cleared.(changing := true);
      var answered := match outcome
        case Changed => busy.(success := Done, oldPassword := "", newPassword := "")
        case Rejected(code, message) => busy.(error := RejectionMessage(code, message));
      Attempt(answered.(changing := false), true)
  }

  /** The messages shown before an attempt do not affect its result. */
  lemma ChangePasswordIgnoresOldMessages(f: PasswordForm, error: string, success: string, outcome: ProviderOutcome)
    ensures ChangePassword(f.(error := error, success := success), outcome) == ChangePassword(f, outcome)
  {
  }

  // ---------------------------------------------------------------------------
  // Platform icons
  // ---------------------------------------------------------------------------

  datatype Icon = GitHubIcon | LeetCodeIcon | CodeChefIcon | HackerRankIcon | CodeforcesIcon | LinkIcon

  /** The icon table, keyed by lower-case platform name. */
  function IconByKey(key: string): (icon: Icon)
  {
    match key
    case "github" => GitHubIcon
    case "leetcode" => LeetCodeIcon
    case "codechef" => CodeChefIcon
    case "hackerrank" => HackerRankIcon
    case "codeforces" => CodeforcesIcon
    case _ => LinkIcon
  }

  const IconKeys: set<string> := {"github", "leetcode", "codechef", "hackerrank", "codeforces"}

  /** `platformIcons[platform.toLowerCase()] || platformIcons.default`. */
  function IconFor(platform: string): (icon: Icon)
    ensures IconKey(platform) == "github" ==> icon == GitHubIcon
    ensures IconKey(platform) == "leetcode" ==> icon == LeetCodeIcon
    ensures IconKey(platform) == "codechef" ==> icon == CodeChefIcon
    ensures IconKey(platform) == "hackerrank" ==> icon == HackerRankIcon
    ensures IconKey(platform) == "codeforces" ==> icon == CodeforcesIcon
    ensures IconKey(platform) !in IconKeys ==> icon == LinkIcon
  {
    IconByKey(IconKey(platform))
  }

  /** `toLowerCase` on the characters it maps to a single ASCII letter: the ASCII capitals, and
      the Kelvin sign U+212A, which lower-cases to "k". Every other character is kept. */
  function IconFold(c: char): char
  {
    if c == '\U{212A}' then 'k' else Text.AsciiFold(c)
  }

  /** `platform.toLowerCase()`, as far as it can produce a key of the icon table. */
  function IconKey(platform: string): string
  {
    Text.Lower(platform, IconFold)
  }

  /** A name spelled with the Kelvin sign lower-cases to a table key like its ASCII spelling. */
  lemma KelvinSignFolds()
    ensures IconFor("HAC\U{212A}ERRANK") == HackerRankIcon
  {
    assert IconKey("HAC\U{212A}ERRANK") == "hackerrank";
  }

  /** The lookup ignores letter case: names that lower-case alike get the same icon. */
  lemma IconCaseInsensitive(a: string, b: string)
    requires IconKey(a) == IconKey(b)
    ensures IconFor(a) == IconFor(b)
  {
  }

  /** The lower-case keys of the fixed platform names the home page lists. */
  lemma StoredNameKeys()
    ensures IconKey("LeetCode") == "leetcode"
    ensures IconKey("Codeforces") == "codeforces"
    ensures IconKey("CodeChef") == "codechef"
    ensures IconKey("HackerRank") == "hackerrank"
    ensures IconKey("GeeksforGeeks") == "geeksforgeeks"
  {
  }

  /** The three names the home page stores (LeetCode, Codeforces, CodeChef) find their own
      icons; of the names it lists as not yet available, HackerRank has an icon of its own and
      GeeksforGeeks falls back to the link icon. */
  lemma LinkedPlatformIcons()
    ensures IconFor("LeetCode") == LeetCodeIcon
    ensures IconFor("Codeforces") == CodeforcesIcon
    ensures IconFor("CodeChef") == CodeChefIcon
    ensures IconFor("HackerRank") == HackerRankIcon
    ensures IconFor("GeeksforGeeks") == LinkIcon
  {
    StoredNameKeys();
  }
}

=== FILE: sequences.dfy ===
/** List transforms shared by every page: `Array.prototype.filter`, order-preserving
    subsequences, and the stable sort behind `Array.prototype.sort`. */
module Sequences {

  // ---------------------------------------------------------------------------
  // Filtering
  // ---------------------------------------------------------------------------

  /** The elements of `s` that satisfy `p`, in their original order. */
  function Filter<T(!new)>(s: seq<T>, p: T -> bool): (r: seq<T>)
    ensures |r| <= |s|
    ensures forall x :: multiset(r)[x] == if p(x) then multiset(s)[x] else 0
    ensures forall x :: x in r <==> x in s && p(x)
  {
    if |s| == 0 then []
    else
      assert s == [s[0]] + s[1..];
      if p(s[0]) then [s[0]] + Filter(s[1..], p) else Filter(s[1..], p)
  }

  /** `idx` lists, in increasing order, the positions in `b` at which the elements of `a` sit. */
  ghost predicate Embeds<T>(a: seq<T>, b: seq<T>, idx: seq<nat>)
  {
    && |idx| == |a|
    && (forall i :: 0 <= i < |idx| ==> idx[i] < |b| && a[i] == b[idx[i]])
    && (forall i, j :: 0 <= i < j < |idx| ==> idx[i] < idx[j])
  }

  /** `a` is obtained from `b` by deleting elements and keeping the order of the rest. */
  ghost predicate IsSubsequence<T>(a: seq<T>, b: seq<T>)
  {
    exists idx :: Embeds(a, b, idx)
  }

  function Shift(idx: seq<nat>): (r: seq<nat>)
    ensures |r| == |idx|
    ensures forall i :: 0 <= i < |idx| ==> r[i] == idx[i] + 1
  {
    seq(|idx|, i requires 0 <= i < |idx| => idx[i] + 1)
  }

  /** Skipping the first element of `b` shifts every embedding position by one. */
  lemma EmbedsSkip<T>(a: seq<T>, b: seq<T>, idx: seq<nat>)
    requires |b| > 0 && Embeds(a, b[1..], idx)
    ensures Embeds(a, b, Shift(idx))
  {
    var shifted := Shift(idx);
    forall i | 0 <= i < |shifted|
      ensures shifted[i] < |b| && a[i] == b[shifted[i]]
    {
      assert b[shifted[i]] == b[1..][idx[i]];
    }
  }

  lemma EmbedsKeep<T>(a: seq<T>, b: seq<T>, idx: seq<nat>)
    requires |b| > 0 && Embeds(a, b[1..], idx)
    ensures Embeds([b[0]] + a, b, [0] + Shift(idx))
  {
    EmbedsSkip(a, b, idx);
    var shifted := Shift(idx);
    var idx', a' := [0] + shifted, [b[0]] + a;
    forall i | 0 < i < |idx'|
      ensures idx'[i] < |b| && a'[i] == b[idx'[i]]
    {
      assert idx'[i] == shifted[i - 1] && a'[i] == a[i - 1];
    }
  }

  /** A filter keeps its survivors in the order they had. */
  lemma {:induction false} FilterIsSubsequence<T(!new)>(s: seq<T>, p: T -> bool)
    ensures IsSubsequence(Filter(s, p), s)
  {
    if |s| == 0 {
      assert Embeds(Filter(s, p), s, []);
    } else {
      var rest := Filter(s[1..], p);
      FilterIsSubsequence(s[1..], p);
      var idx :| Embeds(rest, s[1..], idx);
      if p(s[0]) {
        EmbedsKeep(rest, s, idx);
        assert Embeds(Filter(s, p), s, [0] + Shift(idx));
      } else {
        EmbedsSkip(rest, s, idx);
        assert Embeds(Filter(s, p), s, Shift(idx));
      }
    }
  }

  /** A predicate every element satisfies filters nothing out. */
  lemma {:induction false} FilterKeepsAll<T(!new)>(s: seq<T>, p: T -> bool)
    requires forall x :: x in s ==> p(x)
    ensures Filter(s, p) == s
  {
    if |s| > 0 {
      FilterKeepsAll(s[1..], p);
    }
  }

  /** A predicate and its negation split a list: together they keep every element exactly once. */
  lemma FilterPartition<T(!new)>(s: seq<T>, p: T -> bool, q: T -> bool)
    requires forall x :: q(x) == !p(x)
    ensures multiset(Filter(s, p)) + multiset(Filter(s, q)) == multiset(s)
    ensures |Filter(s, p)| + |Filter(s, q)| == |s|
  {
    var a, b := multiset(Filter(s, p)), multiset(Filter(s, q));
    assert a + b == multiset(s);
    assert |a + b| == |a| + |b|;
  }

  /** Filtering twice keeps what satisfies both predicates. */
  lemma {:induction false} FilterFilter<T(!new)>(s: seq<T>, p: T -> bool, q: T -> bool, pq: T -> bool)
    requires forall x :: pq(x) == (p(x) && q(x))
    ensures Filter(Filter(s, p), q) == Filter(s, pq)
  {
    if |s| > 0 {
      FilterFilter(s[1..], p, q, pq);
    }
  }

  // ---------------------------------------------------------------------------
  // Stable sorting
  // ---------------------------------------------------------------------------

  /** `le(a, b)` holds when `a` may stand before `b`: for a comparator `cmp`, `cmp(a, b) <= 0`. */
  ghost predicate Total<T(!new)>(le: (T, T) -> bool)
  {
    forall a, b :: le(a, b) || le(b, a)
  }

  /** Every neighbour pair is in `le` order. */
  predicate SortedBy<T>(s: seq<T>, le: (T, T) -> bool)
  {
    forall i :: 0 < i < |s| ==> le(s[i - 1], s[i])
  }

  /** Inserts `x` in front of the first element it may precede, so equal elements keep their order. */
  function Insert<T(!new)>(x: T, s: seq<T>, le: (T, T) -> bool): (r: seq<T>)
    ensures |r| == |s| + 1
    ensures multiset(r) == multiset(s) + multiset{x}
    ensures forall y :: y in r <==> y in s || y == x
  {
    if |s| == 0 || le(x, s[0]) then [x] + s
    else
      assert s == [s[0]] + s[1..];
      [s[0]] + Insert(x, s[1..], le)
  }

  /** Stable insertion sort: the result the host's stable `sort` gives for the comparator behind `le`. */
  function SortBy<T(!new)>(s: seq<T>, le: (T, T) -> bool): (r: seq<T>)
    ensures |r| == |s|
    ensures multiset(r) == multiset(s)
    ensures forall x :: x in r <==> x in s
  {
    if |s| == 0 then []
    else
      assert s == [s[0]] + s[1..];
      Insert(s[0], SortBy(s[1..], le), le)
  }

  lemma {:induction false} InsertSorted<T(!new)>(x: T, s: seq<T>, le: (T, T) -> bool)
    requires Total(le)
    requires SortedBy(s, le)
    ensures SortedBy(Insert(x, s, le), le)
  {
    if |s| == 0 || le(x, s[0]) {
    } else {
      assert le(s[0], x);
      InsertSorted(x, s[1..], le);
      var t := Insert(x, s[1..], le);
      assert t[0] == x || t[0] == s[1] by {
        if |s| > 1 && le(x, s[1]) {
        } else if |s| > 1 {
          assert t == [s[1]] + Insert(x, s[2..], le);
        }
      }
    }
  }

  /** For a total `le` the sort puts every neighbour pair in order. */
  lemma {:induction false} SortBySorted<T(!new)>(s: seq<T>, le: (T, T) -> bool)
    requires Total(le)
    ensures SortedBy(SortBy(s, le), le)
  {
    if |s| > 0 {
      SortBySorted(s[1..], le);
      InsertSorted(s[0], SortBy(s[1..], le), le);
    }
  }

  /** A comparator that calls every pair equal leaves the list as it was. */
  lemma {:induction false} SortByAllEqual<T(!new)>(s: seq<T>, le: (T, T) -> bool)
    requires forall a, b :: le(a, b)
    ensures SortBy(s, le) == s
  {
    if |s| > 0 {
      SortByAllEqual(s[1..], le);
    }
  }

  /** A comparator that compares integer keys sorts by key, at any distance. */
  lemma {:induction false} SortByKey<T(!new)>(s: seq<T>, le: (T, T) -> bool, key: T -> int, i: int, j: int)
    requires forall a, b :: le(a, b) == (key(a) <= key(b))
    requires 0 <= i <= j < |s|
    ensures key(SortBy(s, le)[i]) <= key(SortBy(s, le)[j])
  {
    assert Total(le) by {
      forall a, b
        ensures le(a, b) || le(b, a)
      {
        assert key(a) <= key(b) || key(b) <= key(a);
      }
    }
    SortBySorted(s, le);
    var r := SortBy(s, le);
    var k := j;
    while k > i
      invariant i <= k <= j
      invariant key(r[k]) <= key(r[j])
    {
      assert le(r[k - 1], r[k]);
      k := k - 1;
    }
  }
}

=== FILE: storage.dfy ===
/** The backing document store, as far as the pages see it: whether the awaited store call an
    action makes (a write, or a read then a write) went through, or was rejected (a network
    error, a missing document to update, a denied permission) before the page changed any of
    its own state. */
module Storage {
  datatype StoreOutcome = Succeeded | Failed
}

=== FILE: tasks.dfy ===
/** The Tasks page: the search / status / sort chain over the list of tasks, the In Progress and
    Completed sections, comma-separated tag parsing, the create / edit / complete updates of the
    stored task records, and the truncated title and URL shown on a card. */
module Tasks {
  import opened Wrappers
  import opened Sequences
  import opened Storage
  import opened Text

  /** A stored task. `date` is the text the date input produced. */
  datatype Task = Task(
    id: string, title: string, url: string, date: string, time: string,
    description: string, tags: seq<string>, completed: bool)

  /** The modal's form fields; `tags` is the raw comma-separated text. */
  datatype Draft = Draft(title: string, url: string, date: string, time: string, description: string, tags: string)

  const EmptyDraft := Draft("", "", "", "", "", "")

  /** What the page borrows from the host: `toLowerCase` as a per-character fold,
      `localeCompare` as a comparison returning a negative, zero or positive number,
      and `new Date(text)` as the instant in milliseconds. */
  datatype Host = Host(fold: char -> char, collate: (string, string) -> int, dateOf: string -> int)

  /** `localeCompare` orders any two titles one way or the other. */
  ghost predicate CollationTotal(host: Host)
  {
    forall a, b :: host.collate(a, b) <= 0 || host.collate(b, a) <= 0
  }

  // ---------------------------------------------------------------------------
  // The filteredTasks chain
  // ---------------------------------------------------------------------------

  /** The lower-cased title includes the lower-cased search text. */
  predicate MatchesSearch(t: Task, search: string, host: Host)
  {
    Includes(Lower(t.title, host.fold), Lower(search, host.fold))
  }

  /** The status step: "completed" keeps completed tasks, "upcoming" keeps tasks dated after
      `now`, every other filter keeps everything. */
  predicate MatchesFilter(t: Task, filter: string, now: int, host: Host)
  {
    if filter == "completed" then t.completed
    else if filter == "upcoming" then host.dateOf(t.date) > now
    else true
  }

  /** The sort comparator: titles for "a-z", dates for "due", and 0 (keep the order) otherwise. */
  function Compare(a: Task, b: Task, filter: string, host: Host): int
  {
    if filter == "a-z" then host.collate(a.title, b.title)
    else if filter == "due" then host.dateOf(a.date) - host.dateOf(b.date)
    else 0
  }

  function Searched(tasks: seq<Task>, search: string, host: Host): seq<Task>
  {
    Filter(tasks, t => MatchesSearch(t, search, host))
  }

  function StatusFiltered(tasks: seq<Task>, search: string, filter: string, now: int, host: Host): seq<Task>
  {
    Filter(Searched(tasks, search, host), t => MatchesFilter(t, filter, now, host))
  }

  /** Tasks the page shows, before they are split into sections. */
  function FilteredTasks(tasks: seq<Task>, search: string, filter: string, now: int, host: Host): (r: seq<Task>)
    ensures multiset(r) == multiset(StatusFiltered(tasks, search, filter, now, host))
    ensures forall t :: t in r ==> t in tasks && MatchesSearch(t, search, host) && MatchesFilter(t, filter, now, host)
    ensures filter == "completed" ==> forall t :: t in r ==> t.completed
  {
    SortBy(StatusFiltered(tasks, search, filter, now, host), (a, b) => Compare(a, b, filter, host) <= 0)
  }

  /** An empty search keeps every task, in order. */
  lemma EmptySearchKeepsAll(tasks: seq<Task>, host: Host)
    ensures Searched(tasks, "", host) == tasks
  {
    forall t | t in tasks
      ensures MatchesSearch(t, "", host)
    {
      assert Lower("", host.fold) == "";
      IncludesEmpty(Lower(t.title, host.fold));
    }
    FilterKeepsAll(tasks, t => MatchesSearch(t, "", host));
  }

  /** Every task that survives the search has the lower-cased search text somewhere in its
      lower-cased title, and every task with that property survives. */
  lemma SearchIsSubstring(tasks: seq<Task>, search: string, host: Host, t: Task)
    ensures t in Searched(tasks, search, host)
            <==> t in tasks && exists i :: OccursAt(Lower(search, host.fold), Lower(t.title, host.fold), i)
  {
    IncludesIffOccurs(Lower(t.title, host.fold), Lower(search, host.fold));
  }

  /** "all", "a-z" and "due" drop nothing at the status step. */
  lemma OrderingFiltersDropNothing(tasks: seq<Task>, search: string, filter: string, now: int, host: Host)
    requires filter == "all" || filter == "a-z" || filter == "due"
    ensures StatusFiltered(tasks, search, filter, now, host) == Searched(tasks, search, host)
  {
    FilterKeepsAll(Searched(tasks, search, host), t => MatchesFilter(t, filter, now, host));
  }

  /** "completed" keeps exactly the completed tasks that match the search. */
  lemma CompletedKeepsCompleted(tasks: seq<Task>, search: string, now: int, host: Host, t: Task)
    ensures t in FilteredTasks(tasks, search, "completed", now, host)
            <==> t in Searched(tasks, search, host) && t.completed
  {
  }

  /** "a-z" lists titles in collation order. */
  lemma AzSortsTitles(tasks: seq<Task>, search: string, now: int, host: Host)
    requires CollationTotal(host)
    ensures var r := FilteredTasks(tasks, search, "a-z", now, host);
            forall i :: 0 < i < |r| ==> host.collate(r[i - 1].title, r[i].title) <= 0
  {
    var le := (a, b) => Compare(a, b, "a-z", host) <= 0;
    assert Total(le) by {
      forall a: Task, b: Task
        ensures le(a, b) || le(b, a)
      {
        assert host.collate(a.title, b.title) <= 0 || host.collate(b.title, a.title) <= 0;
      }
    }
    var s := StatusFiltered(tasks, search, "a-z", now, host);
    SortBySorted(s, le);
    assert FilteredTasks(tasks, search, "a-z", now, host) == SortBy(s, le);
  }

  /** "due" lists tasks in non-decreasing order of date, at any distance. */
  lemma DueSortsDates(tasks: seq<Task>, search: string, now: int, host: Host, i: int, j: int)
    requires 0 <= i <= j < |FilteredTasks(tasks, search, "due", now, host)|
    ensures var r := FilteredTasks(tasks, search, "due", now, host);
            host.dateOf(r[i].date) <= host.dateOf(r[j].date)
  {
    var le := (a, b) => Compare(a, b, "due", host) <= 0;
    var s := StatusFiltered(tasks, search, "due", now, host);
    assert FilteredTasks(tasks, search, "due", now, host) == SortBy(s, le);
    SortByKey(s, le, (t: Task) => host.dateOf(t.date), i, j);
  }

  /** Every other filter sorts with a comparator that always answers 0, which the stable
      sort turns into the filtered order unchanged. */
  lemma OtherFiltersKeepOrder(tasks: seq<Task>, search: string, filter: string, now: int, host: Host)
    requires filter != "a-z" && filter != "due"
    ensures FilteredTasks(tasks, search, filter, now, host) == StatusFiltered(tasks, search, filter, now, host)
  {
    SortByAllEqual(StatusFiltered(tasks, search, filter, now, host), (a, b) => Compare(a, b, filter, host) <= 0);
  }

  // ---------------------------------------------------------------------------
  // Sections
  // ---------------------------------------------------------------------------

  function InProgress(filtered: seq<Task>): seq<Task>
  {
    Filter(filtered, (t: Task) => !t.completed)
  }

  function Completed(filtered: seq<Task>): seq<Task>
  {
    Filter(filtered, (t: Task) => t.completed)
  }

  /** The two sections split the filtered list: every task lands in exactly one, so the
      section counts add up to its length. */
  lemma SectionsPartition(filtered: seq<Task>)
    ensures multiset(InProgress(filtered)) + multiset(Completed(filtered)) == multiset(filtered)
    ensures |InProgress(filtered)| + |Completed(filtered)| == |filtered|
    ensures forall t :: t in InProgress(filtered) ==> !t.completed
    ensures forall t :: t in Completed(filtered) ==> t.completed
  {
    FilterPartition(filtered, (t: Task) => !t.completed, (t: Task) => t.completed);
  }

  // ---------------------------------------------------------------------------
  // Tags
  // ---------------------------------------------------------------------------

  /** Trims every piece. */
  function TrimAll(parts: seq<string>): (r: seq<string>)
    ensures |r| == |parts|
    ensures forall i :: 0 <= i < |parts| ==> r[i] == Trim(parts[i])
  {
    seq(|parts|, i requires 0 <= i < |parts| => Trim(parts[i]))
  }

  /** Trimming keeps only characters of the original. */
  lemma TrimKeepsCharacters(s: string, c: char)
    requires c !in s
    ensures c !in Trim(s)
  {
    var lo := LeadingSpaces(s);
    var r := Trim(s);
    TrimIsSlice(s);
    assert r == s[lo..lo + |r|];
    assert forall x :: x in r ==> x in s;
  }

  /** `tags.split(",").map(t => t.trim())`: one tag more than there are commas, none with
      a comma or surrounding whitespace. */
  function ParseTags(text: string): (tags: seq<string>)
    ensures |tags| == multiset(text)[','] + 1
    ensures forall i :: 0 <= i < |tags| ==> IsTrimmed(tags[i]) && ',' !in tags[i]
  {
    var parts := Split(text, ',');
    var tags := TrimAll(parts);
    assert forall i :: 0 <= i < |parts| ==> ',' !in tags[i] by {
      forall i | 0 <= i < |parts|
        ensures ',' !in tags[i]
      {
        TrimKeepsCharacters(parts[i], ',');
      }
    }
    tags
  }

  /** The text the edit form shows for stored tags: `tags.join(", ")`. */
  function TagsText(tags: seq<string>): string
  {
    Join(tags, ", ")
  }

  /** A tag list the form can reproduce: at least one tag, none with a comma or
      surrounding whitespace. */
  predicate WellFormedTags(tags: seq<string>)
  {
    |tags| > 0 && forall i :: 0 <= i < |tags| ==> IsTrimmed(tags[i]) && ',' !in tags[i]
  }

  /** Every tag with a space in front, as it follows a ", " separator. */
  function Spaced(tags: seq<string>): (r: seq<string>)
    ensures |r| == |tags|
    ensures forall i :: 0 <= i < |r| ==> r[i] == " " + tags[i]
  {
    if |tags| == 0 then [] else [" " + tags[0]] + Spaced(tags[1..])
  }

  /** The pieces `", "`-joined tags split into at the commas. */
  function Padded(tags: seq<string>): (r: seq<string>)
    requires |tags| > 0
  {
    [tags[0]] + Spaced(tags[1..])
  }

  /** Joining with ", " is joining the first tag and the space-prefixed others with ",". */
  lemma {:induction false} JoinSpaced(first: string, tags: seq<string>)
    ensures Join([first] + tags, ", ") == Join([first] + Spaced(tags), ",")
    decreases |tags|
  {
    JoinCons(first, tags, ", ");
    JoinCons(first, Spaced(tags), ",");
    if |tags| > 0 {
      var t, rest := tags[0], tags[1..];
      assert tags == [t] + rest;
      JoinSpaced(t, rest);
      assert Spaced(tags) == [" " + t] + Spaced(rest);
      JoinPrefixFirst(" ", t, Spaced(rest), ",");
    }
  }

  /** Joining with ", " is joining the padded pieces with ",". */
  lemma JoinPadded(tags: seq<string>)
    requires |tags| > 0
    ensures Join(tags, ", ") == Join(Padded(tags), ",")
  {
    assert tags == [tags[0]] + tags[1..];
    JoinSpaced(tags[0], tags[1..]);
  }

  /** Trimming the padded pieces gives back the tags. */
  lemma TrimPadded(tags: seq<string>)
    requires WellFormedTags(tags)
    ensures TrimAll(Padded(tags)) == tags
  {
    var p := Padded(tags);
    var r := TrimAll(p);
    assert AllSpace(" ");
    forall i | 0 <= i < |tags|
      ensures r[i] == tags[i]
    {
      if i == 0 {
        TrimTrimmed(tags[0]);
      } else {
        assert p[i] == Spaced(tags[1..])[i - 1] == " " + tags[i];
        TrimAfterSpaces(" ", tags[i]);
      }
    }
    assert |r| == |tags|;
  }

  /** Parsing the text the edit form shows gives back the stored tags. */
  lemma ParseTagsText(tags: seq<string>)
    requires WellFormedTags(tags)
    ensures ParseTags(TagsText(tags)) == tags
  {
    var p := Padded(tags);
    JoinPadded(tags);
    assert forall i :: 0 <= i < |p| ==> ',' !in p[i];
    SplitJoin(p, ',');
    assert Split(TagsText(tags), ',') == p;
    TrimPadded(tags);
  }

  /** An empty tag list comes back from the form as one empty tag. */
  lemma NoTagsBecomeOneEmptyTag()
    ensures ParseTags(TagsText([])) == [""]
  {
  }

  // ---------------------------------------------------------------------------
  // Record updates
  // ---------------------------------------------------------------------------

  /** `addDoc` with the form fields, the parsed tags and `completed: false`. */
  function NewTask(id: string, d: Draft): (t: Task)
    ensures t.id == id && !t.completed
    ensures t.title == d.title && t.url == d.url && t.date == d.date
    ensures t.time == d.time && t.description == d.description
    ensures t.tags == ParseTags(d.tags)
  {
    Task(id, d.title, d.url, d.date, d.time, d.description, ParseTags(d.tags), false)
  }

  /** `updateDoc` with the form fields and the parsed tags: `completed` and the id stay. */
  function EditTask(t: Task, d: Draft): (t': Task)
    ensures t'.id == t.id && t'.completed == t.completed
    ensures t'.title == d.title && t'.url == d.url && t'.date == d.date
    ensures t'.time == d.time && t'.description == d.description
    ensures t'.tags == ParseTags(d.tags)
  {
    t.(title := d.title, url := d.url, date := d.date, time := d.time,
       description := d.description, tags := ParseTags(d.tags))
  }

  /** `updateDoc` with `{ completed: true }`. */
  function MarkComplete(t: Task): (t': Task)
    ensures t'.completed
    ensures t' == t.(completed := true)
  {
    t.(completed := true)
  }

  /** The form fields the edit button loads from a stored task. */
  function DraftOf(t: Task): Draft
  {
    Draft(t.title, t.url, t.date, t.time, t.description, TagsText(t.tags))
  }

  /** The stored tasks by document id, and the modal's state. */
  datatype Page = Page(tasks: map<string, Task>, draft: Draft, editId: Option<string>, showModal: bool)

  /** `handleModalSubmit`. Without a signed-in user nothing happens. A write the store rejects
      (`outcome`), including an update of a task that no longer exists, ends the handler before
      the modal closes. A new task is stored under `freshId`, the id the store assigns. */
  function Submit(p: Page, signedIn: bool, freshId: string, outcome: StoreOutcome): (p': Page)
    requires p.editId.None? ==> freshId !in p.tasks
    ensures !signedIn || outcome == Failed ==> p' == p
    ensures signedIn && p.editId.Some? && p.editId.value !in p.tasks ==> p' == p
    ensures signedIn && outcome == Succeeded && p.editId.None? ==>
              && p'.tasks == p.tasks[freshId := NewTask(freshId, p.draft)]
              && !p'.tasks[freshId].completed
    ensures signedIn && outcome == Succeeded && p.editId.Some? && p.editId.value in p.tasks ==>
              && p'.tasks.Keys == p.tasks.Keys
              && p'.tasks[p.editId.value] == EditTask(p.tasks[p.editId.value], p.draft)
              && p'.tasks[p.editId.value].completed == p.tasks[p.editId.value].completed
              && (forall k :: k in p.tasks && k != p.editId.value ==> p'.tasks[k] == p.tasks[k])
    ensures signedIn && outcome == Succeeded && (p.editId.None? || p.editId.value in p.tasks) ==>
              !p'.showModal && p'.draft == EmptyDraft && p'.editId.None?
  {
    if !signedIn || outcome == Failed then p
    else match p.editId
      case Some(id) =>
        if id in p.tasks then Page(p.tasks[id := EditTask(p.tasks[id], p.draft)], EmptyDraft, None, false)
        else p
      case None =>
        Page(p.tasks[freshId := NewTask(freshId, p.draft)], EmptyDraft, None, false)
  }

  /** `editTask`: reads the stored task, loads it into the form and opens the modal in edit
      mode. A rejected read (`outcome`) ends the handler before the form changes. */
  function StartEdit(p: Page, signedIn: bool, id: string, outcome: StoreOutcome): (p': Page)
    ensures p'.tasks == p.tasks
    ensures signedIn && outcome == Succeeded && id in p.tasks ==>
              p'.draft == DraftOf(p.tasks[id]) && p'.editId == Some(id) && p'.showModal
    ensures !(signedIn && outcome == Succeeded && id in p.tasks) ==> p' == p
  {
    if signedIn && outcome == Succeeded && id in p.tasks then
      p.(draft := DraftOf(p.tasks[id]), editId := Some(id), showModal := true)
    else p
  }

  /** `markAsComplete` on the page's store: only the named task changes, and only in `completed`.
      Updating a task that does not exist is rejected by the store like any failed write. */
  function CompleteTask(p: Page, signedIn: bool, id: string, outcome: StoreOutcome): (p': Page)
    ensures !signedIn || outcome == Failed || id !in p.tasks ==> p' == p
    ensures p'.tasks.Keys == p.tasks.Keys
    ensures signedIn && outcome == Succeeded && id in p.tasks ==> p'.tasks[id] == p.tasks[id].(completed := true)
    ensures forall k :: k in p.tasks && k != id ==> p'.tasks[k] == p.tasks[k]
    ensures p'.draft == p.draft && p'.editId == p.editId && p'.showModal == p.showModal
  {
    if signedIn && outcome == Succeeded && id in p.tasks then p.(tasks := p.tasks[id := MarkComplete(p.tasks[id])])
    else p
  }

  /** `deleteTask`: removes the named task and nothing else; deleting a missing task is no error. */
  function DeleteTask(p: Page, signedIn: bool, id: string, outcome: StoreOutcome): (p': Page)
    ensures !signedIn || outcome == Failed ==> p' == p
    ensures signedIn && outcome == Succeeded ==> p'.tasks.Keys == p.tasks.Keys - {id}
    ensures forall k :: k in p'.tasks ==> k in p.tasks && p'.tasks[k] == p.tasks[k]
    ensures p'.draft == p.draft && p'.editId == p.editId && p'.showModal == p.showModal
  {
    if signedIn && outcome == Succeeded then p.(tasks := p.tasks - {id}) else p
  }

  /** Completing a task again, whether or not that second write goes through, changes nothing. */
  lemma CompleteTaskIdempotent(p: Page, signedIn: bool, id: string, again: StoreOutcome)
    ensures var once := CompleteTask(p, signedIn, id, Succeeded);
            CompleteTask(once, signedIn, id, again) == once
  {
  }

  /** Opening a task for editing and saving it without changes leaves the store as it was,
      provided its tags are ones the form can reproduce. */
  lemma EditRoundTrip(p: Page, id: string, freshId: string)
    requires id in p.tasks && WellFormedTags(p.tasks[id].tags)
    ensures var saved := Submit(StartEdit(p, true, id, Succeeded), true, freshId, Succeeded);
            saved.tasks == p.tasks && !saved.showModal && saved.editId.None?
  {
    var t := p.tasks[id];
    ParseTagsText(t.tags);
    assert EditTask(t, DraftOf(t)) == t;
  }

  // ---------------------------------------------------------------------------
  // Card text
  // ---------------------------------------------------------------------------

  /** A title longer than 30 characters shows as its first 27 characters and "...". */
  function DisplayTitle(title: string): (shown: string)
    ensures |shown| <= 30
    ensures |title| <= 30 <==> shown == title
    ensures shown != title ==> shown == title[..27] + "..."
  {
    if |title| > 30 then title[..27] + "..." else title
  }

  /** A URL longer than 35 characters shows as its first 35 characters and "...". */
  function DisplayUrl(url: string): (shown: string)
    ensures |shown| <= 38
    ensures |url| <= 35 ==> shown == url
    ensures |url| > 35 ==> shown == url[..35] + "..."
  {
    if |url| > 35 then url[..35] + "..." else url
  }

  /** A shown title is short enough to be shown as it is. */
  lemma DisplayTitleIdempotent(title: string)
    ensures DisplayTitle(DisplayTitle(title)) == DisplayTitle(title)
  {
  }
}

=== FILE: text.dfy ===
/** String operations the pages call on JavaScript strings: `toLowerCase`, `includes`,
    `trim`, `split` and `join`. A JavaScript string is a sequence of characters here. */
module Text {

  // ---------------------------------------------------------------------------
  // Case folding and substring search
  // ---------------------------------------------------------------------------

  /** `toLowerCase`, as a per-character case fold `fold` left abstract. */
  function Lower(s: string, fold: char -> char): (r: string)
    ensures |r| == |s|
    ensures forall i :: 0 <= i < |s| ==> r[i] == fold(s[i])
  {
    seq(|s|, i requires 0 <= i < |s| => fold(s[i]))
  }

  /** The case fold on ASCII letters; every other character is left as it is. */
  function AsciiFold(c: char): char
  {
    if 'A' <= c <= 'Z' then c - 'A' + 'a' else c
  }

  /** `sub` sits in `s` starting at position `i`. */
  ghost predicate OccursAt(sub: string, s: string, i: int)
  {
    0 <= i && i + |sub| <= |s| && s[i..i + |sub|] == sub
  }

  /** `s.includes(sub)`: a scan over the start positions of `s`. */
  function Includes(s: string, sub: string): bool
  {
    if |sub| > |s| then false
    else if s[..|sub|] == sub then true
    else Includes(s[1..], sub)
  }

  /** The scan answers yes exactly when some start position holds `sub`. */
  lemma {:induction false} IncludesIffOccurs(s: string, sub: string)
    ensures Includes(s, sub) <==> exists i :: OccursAt(sub, s, i)
  {
    if |sub| > |s| {
    } else if s[..|sub|] == sub {
      assert OccursAt(sub, s, 0);
    } else {
      IncludesIffOccurs(s[1..], sub);
      if exists i :: OccursAt(sub, s, i) {
        var i :| OccursAt(sub, s, i);
        assert i != 0;
        assert s[1..][i - 1..i - 1 + |sub|] == s[i..i + |sub|];
        assert OccursAt(sub, s[1..], i - 1);
      }
      if exists i :: OccursAt(sub, s[1..], i) {
        var i :| OccursAt(sub, s[1..], i);
        assert s[1..][i..i + |sub|] == s[i + 1..i + 1 + |sub|];
        assert OccursAt(sub, s, i + 1);
      }
    }
  }

  /** Every string includes the empty string. */
  lemma IncludesEmpty(s: string)
    ensures Includes(s, "")
  {
    assert s[..0] == "";
  }

  // ---------------------------------------------------------------------------
  // Whitespace and trim
  // ---------------------------------------------------------------------------

  /** The characters `trim` removes: the WhiteSpace and LineTerminator code points of
      ECMAScript (tab, vertical tab, form feed, space, no-break space, byte-order mark,
      the Unicode space separators, line feed, carriage return, line and paragraph separator). */
  predicate IsSpace(c: char)
  {
    c in Spaces
  }

  const Spaces: set<char> := {
    '\t', '\n', '\U{000B}', '\U{000C}', '\r', ' ', '\U{00A0}', '\U{1680}',
    '\U{2000}', '\U{2001}', '\U{2002}', '\U{2003}', '\U{2004}', '\U{2005}', '\U{2006}',
    '\U{2007}', '\U{2008}', '\U{2009}', '\U{200A}',
    '\U{2028}', '\U{2029}', '\U{202F}', '\U{205F}', '\U{3000}', '\U{FEFF}'
  }

  predicate AllSpace(s: string)
  {
    forall i :: 0 <= i < |s| ==> IsSpace(s[i])
  }

  /** Neither the first nor the last character is whitespace. */
  predicate IsTrimmed(s: string)
  {
    |s| > 0 ==> !IsSpace(s[0]) && !IsSpace(s[|s| - 1])
  }

  /** How many whitespace characters `s` starts with. */
  function LeadingSpaces(s: string): (n: nat)
    ensures n <= |s|
    ensures forall i :: 0 <= i < n ==> IsSpace(s[i])
    ensures n < |s| ==> !IsSpace(s[n])
  {
    if |s| > 0 && IsSpace(s[0]) then 1 + LeadingSpaces(s[1..]) else 0
  }

  /** How many whitespace characters `s` ends with. */
  function TrailingSpaces(s: string): (n: nat)
    ensures n <= |s|
    ensures forall i :: |s| - n <= i < |s| ==> IsSpace(s[i])
    ensures n < |s| ==> !IsSpace(s[|s| - n - 1])
  {
    if |s| > 0 && IsSpace(s[|s| - 1]) then 1 + TrailingSpaces(s[..|s| - 1]) else 0
  }

  /** `s.trim()`: `s` without its leading and trailing whitespace. */
  function Trim(s: string): (r: string)
    ensures IsTrimmed(r)
  {
    var t := s[LeadingSpaces(s)..];
    t[..|t| - TrailingSpaces(t)]
  }

  /** The trimmed string is the slice of `s` that starts after the leading whitespace,
      with only whitespace before and after it. */
  lemma TrimIsSlice(s: string)
    ensures var r, lo := Trim(s), LeadingSpaces(s);
            && lo + |r| <= |s| && r == s[lo..lo + |r|]
            && (forall i :: 0 <= i < lo ==> IsSpace(s[i]))
            && (forall i :: lo + |r| <= i < |s| ==> IsSpace(s[i]))
  {
    var lo := LeadingSpaces(s);
    var t := s[lo..];
    var n := TrailingSpaces(t);
    forall i | lo + |Trim(s)| <= i < |s|
      ensures IsSpace(s[i])
    {
      assert s[i] == t[i - lo];
    }
  }

  /** Trimming a string that has no whitespace at either end changes nothing. */
  lemma TrimTrimmed(s: string)
    requires IsTrimmed(s)
    ensures Trim(s) == s
  {
    assert LeadingSpaces(s) == 0;
    assert s[0..] == s;
    assert TrailingSpaces(s) == 0;
  }

  lemma {:induction false} LeadingSpacesOfPadded(pad: string, s: string)
    requires AllSpace(pad) && IsTrimmed(s)
    ensures LeadingSpaces(pad + s) == |pad|
  {
    if |pad| > 0 {
      assert (pad + s)[1..] == pad[1..] + s;
      LeadingSpacesOfPadded(pad[1..], s);
    } else {
      assert pad + s == s;
    }
  }

  /** Leading whitespace in front of a trimmed string is all that `trim` takes away. */
  lemma TrimAfterSpaces(pad: string, s: string)
    requires AllSpace(pad) && IsTrimmed(s)
    ensures Trim(pad + s) == s
  {
    LeadingSpacesOfPadded(pad, s);
    assert (pad + s)[|pad|..] == s;
    assert TrailingSpaces(s) == 0;
  }

  // ---------------------------------------------------------------------------
  // split and join
  // ---------------------------------------------------------------------------

  /** `s.split(sep)` for a one-character separator: the pieces between separators,
      one more than there are separators, none containing the separator. */
  function Split(s: string, sep: char): (r: seq<string>)
    ensures |r| == multiset(s)[sep] + 1
    ensures forall i :: 0 <= i < |r| ==> sep !in r[i]
  {
    if |s| == 0 then [""]
    else
      assert s == [s[0]] + s[1..];
      var rest := Split(s[1..], sep);
      if s[0] == sep then [""] + rest
      else [[s[0]] + rest[0]] + rest[1..]
  }

  /** The first piece is everything before the first separator, or the whole string. */
  lemma {:induction false} SplitFirst(s: string, sep: char)
    ensures var first := Split(s, sep)[0];
            && |first| <= |s| && s[..|first|] == first
            && (|first| < |s| ==> s[|first|] == sep)
  {
    if |s| > 0 {
      SplitFirst(s[1..], sep);
    }
  }

  /** `parts.join(d)`. */
  function Join(parts: seq<string>, d: string): string
  {
    if |parts| == 0 then ""
    else if |parts| == 1 then parts[0]
    else parts[0] + d + Join(parts[1..], d)
  }

  /** Unfolds one step of `Join`. */
  lemma JoinCons(p: string, rest: seq<string>, d: string)
    ensures Join([p] + rest, d) == if |rest| == 0 then p else p + d + Join(rest, d)
  {
    assert ([p] + rest)[1..] == rest;
  }

  /** A prefix on the first piece is a prefix on the join. */
  lemma JoinPrefixFirst(x: string, p: string, rest: seq<string>, d: string)
    ensures Join([x + p] + rest, d) == x + Join([p] + rest, d)
  {
    JoinCons(x + p, rest, d);
    JoinCons(p, rest, d);
  }

  /** Gluing a character onto the first piece glues it onto the join. */
  lemma JoinGlueFirst(c: char, rest: seq<string>, d: string)
    requires |rest| > 0
    ensures Join([[c] + rest[0]] + rest[1..], d) == [c] + Join(rest, d)
  {
    assert rest == [rest[0]] + rest[1..];
    JoinPrefixFirst([c], rest[0], rest[1..], d);
  }

  /** Unfolds one step of `Split`. */
  lemma SplitCons(s: string, sep: char)
    requires |s| > 0
    ensures var rest := Split(s[1..], sep);
            Split(s, sep) == if s[0] == sep then [""] + rest else [[s[0]] + rest[0]] + rest[1..]
  {
  }

  /** A leading separator becomes an empty first piece, and the join puts it back. */
  lemma JoinSplitAtSeparator(s: string, sep: char)
    requires |s| > 0 && s[0] == sep
    requires Join(Split(s[1..], sep), [sep]) == s[1..]
    ensures Join(Split(s, sep), [sep]) == s
  {
    var rest := Split(s[1..], sep);
    SplitCons(s, sep);
    JoinCons("", rest, [sep]);
    assert "" + [sep] + s[1..] == s;
  }

  /** Any other leading character joins the first piece, and the join puts it back. */
  lemma JoinSplitInPiece(s: string, sep: char)
    requires |s| > 0 && s[0] != sep
    requires Join(Split(s[1..], sep), [sep]) == s[1..]
    ensures Join(Split(s, sep), [sep]) == s
  {
    var rest := Split(s[1..], sep);
    SplitCons(s, sep);
    JoinGlueFirst(s[0], rest, [sep]);
    assert [s[0]] + s[1..] == s;
  }

  /** Joining the pieces with the separator gives back the string. */
  lemma {:induction false} JoinSplit(s: string, sep: char)
    ensures Join(Split(s, sep), [sep]) == s
  {
    if |s| > 0 {
      JoinSplit(s[1..], sep);
      if s[0] == sep {
        JoinSplitAtSeparator(s, sep);
      } else {
        JoinSplitInPiece(s, sep);
      }
    }
  }

  /** A piece without the separator splits into itself. */
  lemma {:induction false} SplitPiece(p: string, sep: char)
    requires sep !in p
    ensures Split(p, sep) == [p]
  {
    if |p| > 0 {
      assert sep !in p[1..] by {
        assert forall c :: c in p[1..] ==> c in p;
      }
      SplitPiece(p[1..], sep);
      assert [p[0]] + p[1..] == p;
    }
  }

  /** A separator-free piece followed by the separator comes off as the first piece. */
  lemma {:induction false} SplitFirstPiece(p: string, t: string, sep: char)
    requires sep !in p
    ensures Split(p + [sep] + t, sep) == [p] + Split(t, sep)
  {
    var s := p + [sep] + t;
    if |p| == 0 {
      assert s[1..] == t;
    } else {
      assert sep !in p[1..] by {
        assert forall c :: c in p[1..] ==> c in p;
      }
      assert s[1..] == p[1..] + [sep] + t;
      SplitFirstPiece(p[1..], t, sep);
      assert [p[0]] + p[1..] == p;
    }
  }

  /** Splitting a join of separator-free pieces gives back the pieces. */
  lemma {:induction false} SplitJoin(parts: seq<string>, sep: char)
    requires |parts| > 0
    requires forall i :: 0 <= i < |parts| ==> sep !in parts[i]
    ensures Split(Join(parts, [sep]), sep) == parts
  {
    if |parts| == 1 {
      SplitPiece(parts[0], sep);
    } else {
      SplitJoin(parts[1..], sep);
      SplitFirstPiece(parts[0], Join(parts[1..], [sep]), sep);
      assert parts == [parts[0]] + parts[1..];
    }
  }
}

=== FILE: wrappers.dfy ===
/** The optional values the pages read from documents and responses
    (`undefined` or a missing key on one side, a value on the other). */
module Wrappers {

  datatype Option<+T> = None | Some(value: T) {

    /** The value, or `default` when there is none (the `x || default` idiom). */
    function GetOr(default: T): T {
      match this
      case Some(v) => v
      case None => default
    }
  }
}
